=== FILE: README.md ===
# JIRA REST client: the OAuth handshake, modelled in Dafny

The modelled library is a small PHP client for JIRA's REST API (version 2). Its entry point `JiraClient` builds an `OauthClient`. That client runs the three-legged OAuth 1.0a handshake of RFC 5849 against JIRA's `plugins/servlet/oauth/...` endpoints, and carries its progress between PHP requests in two session slots, `JIRA_REQUEST_TOKEN` and `JIRA_ACCESS_TOKEN`. It then signs the REST calls `getIssue` and `createIssue` with the access token. `Oauth` is the agent that:

- asks for temporary credentials (section 2.1 of RFC 5849);
- builds the authorization URL (section 2.2);
- exchanges the verifier for token credentials (section 2.3);
- builds the signing HTTP client once and then keeps it.

`BaseClient` is the Basic/Anonymous client, with the same request building and no handshake.

The model is functional. Every operation takes the client value, the session and the request's `oauth_verifier` parameter. It returns a step with these parts:

- the outcome: a value, a redirect (`header('Location: …'); exit`), a thrown exception, or `die`;
- the client afterwards;
- the session afterwards;
- the HTTP requests sent, in order.

The transport and PHP's `parse_str`, `urlencode`, `json_encode`, JSON decoding and `base64_encode` are opaque functions in `Http.Env`. `Env.send` is one fixed function for a whole run, and a modelled request has no nonce or timestamp. So the properties hold for every server whose answer depends only on the modelled fields of the request (verb, URL, body, content type, signing credentials): such a server answers a repeated request the same way. `Handshake` strings whole PHP requests ("visits") together. Each visit builds a fresh `JiraClient` for `oauth`, and only the session survives from one visit to the next.

Modules, one per concept, in dependency order:

| file | module | role |
|---|---|---|
| php.dfy | Php | `empty()`, truthiness, missing array keys, the `%s` subset of `sprintf` |
| http.dfy | Http | JSON values, requests, responses, the oracles; request building and response classification shared by both clients |
| outcomes.dfy | Outcomes | exceptions, outcomes, exception messages |
| sessions.dfy | Sessions | the two session slots and the handshake state they encode |
| oauth.dfy | Authentication | `Oauth.php` |
| oauth_client.dfy | OauthClients | `OauthClient.php` |
| base_client.dfy | BaseClients | `BaseClient.php` |
| jira_client.dfy | Jira | `JiraClient.php` |
| handshake.dfy | Handshake | the handshake across visits |

### What the session keeps

- `JIRA_REQUEST_TOKEN` stays in the session after the exchange: `getAccessToken` only writes `JIRA_ACCESS_TOKEN` (src/Jira/Api/Client/OauthClient.php:112). The model keeps the request token too, and `OauthClients.GetToken` states it.
- `JIRA_ACCESS_TOKEN` stays in the session after a 401: the code re-runs `validateOAuthAccess` with the session untouched (OauthClient.php:185-189). `OauthClients.RespondAsWritten` models that code as written. The rest of the model uses the corrected reaction `OauthClients.Reauthorize`, which drops it; see Findings.
- Two members of the call chain therefore describe the corrected program: the REST base (Findings row 1) and the 401 reaction (Findings row 2). Their rows say "(corrected, see Findings)", and "## Left out" names them.

## Model

| member | source | states |
|---|---|---|
| Php.Format | src/Jira/Api/Authentication/Oauth.php:116 | a template without `%` is returned unchanged by the `sprintf` subset |
| Php.SprintfOneDirective | src/Jira/Api/Authentication/Oauth.php:116 | `sprintf` of a template with one `%s` and no other `%` puts the argument in its place |
| Http.Prepare | src/Jira/Api/Client/OauthClient.php:156-180 | an empty URL is rejected and an unknown data type builds no request (both iff); otherwise one request to the URL with the JSON content type, POST exactly when the method is falsy or `post`, a POST carrying the data (strings as they are, anything else JSON-encoded), a GET carrying no body |
| Http.Classify | src/Jira/Api/Client/OauthClient.php:182-197 | a response is unauthorized iff its status is 401, successful iff not 401 and 2xx (carrying the decoded body), otherwise rejected with its reason phrase |
| Http.SplitQueryAfterPath | src/Jira/Api/Authentication/Oauth.php:45 | a path without `?` followed by `?` and a query splits back into exactly that path and query |
| Authentication.New | src/Jira/Api/Authentication/Oauth.php:29-41 | a new agent keeps the base URL, has the default endpoint paths and the `%s` authorization template, every other setting null, no client and no credentials |
| Authentication.Set | src/Jira/Api/Authentication/Oauth.php:119-152 | a setter changes its own setting to the value and nothing else: not the other settings, the base URL, the memoised client or the credentials |
| Authentication.TempCredentialsUrl | src/Jira/Api/Authentication/Oauth.php:43-47 | the temporary-credential URL splits into the request-token endpoint and the query `oauth_callback=<callback>` |
| Authentication.AuthCredentialsUrl | src/Jira/Api/Authentication/Oauth.php:49-55 | the token-credential URL splits into the access-token endpoint and the query carrying the callback and then the verifier |
| Authentication.GetClient | src/Jira/Api/Authentication/Oauth.php:79-113 | a memoised client is returned with the agent unchanged; otherwise a client for the base URL is built and memoised, signing with the consumer key and secret by RSA-SHA1, with the token pair from the last credentials when the token argument is falsy and from the arguments otherwise |
| Authentication.ClientIsMemoised | src/Jira/Api/Authentication/Oauth.php:79-82 | after a first call, every call returns the first client whatever token pair it passes |
| Authentication.MakeTokens | src/Jira/Api/Authentication/Oauth.php:65-77 | the credentials are the parsed body, and are stored, iff parsing yields something; otherwise the credential error is thrown and the agent is unchanged |
| Authentication.RequestCredentials | src/Jira/Api/Authentication/Oauth.php:57-63 | one body-less POST to the URL through `GetClient`'s client, which stays memoised; the result is the parsed credentials iff the response parses to something, else the credential error; no setting changes |
| Authentication.RequestTempCredentials | src/Jira/Api/Authentication/Oauth.php:43-47 | the POST goes to the temporary-credential URL, signed with the stored credentials' token, which is no token at all for a fresh agent, or with the memoised client |
| Authentication.RequestAuthCredentials | src/Jira/Api/Authentication/Oauth.php:49-55 | the POST goes to the token-credential URL for the verifier, signed with the given temporary token pair when its token is truthy; with a falsy token the agent's last credentials sign instead; a memoised client signs whatever the arguments |
| Authentication.MakeAuthUrl | src/Jira/Api/Authentication/Oauth.php:115-117 | the authorization URL always starts with the base URL, and a template without `%` is appended unchanged |
| Authentication.AuthUrlCarriesToken | src/Jira/Api/Authentication/Oauth.php:115-117 | for a template `prefix%ssuffix`, the authorization URL is the base URL, the prefix, the URL-encoded `oauth_token` of the last credentials, and the suffix |
| OauthClients.ApiUrlAsWritten | src/Jira/Api/Client/OauthClient.php:52 | as written, the REST base is the corrected one without its `rest/api/2` suffix, that is the base URL alone |
| OauthClients.ApiUrl | src/Jira/Api/Client/OauthClient.php:36 | the REST base is the base URL followed by `rest/api/2` (see Findings) |
| OauthClients.New | src/Jira/Api/Client/OauthClient.php:41-54 | the agent gets the configured base URL, key, secrets and callback and JIRA's three endpoint paths; no token, no client, automatic revalidation on, the corrected REST base |
| OauthClients.NewFollowsSetterChain | src/Jira/Api/Client/OauthClient.php:43-50 | the agent `New` builds equals the constructor's setter chain applied, in its order, to a new agent |
| OauthClients.AuthorizationRedirectCarriesToken | src/Jira/Api/Client/OauthClient.php:34 | with JIRA's template the authorization URL is the base URL, `plugins/servlet/oauth/authorize?oauth_token=` and the encoded request token |
| OauthClients.ValidateOAuthAccess | src/Jira/Api/Client/OauthClient.php:85-93 | one temporary-credential request; it redirects iff the response parses to credentials, which are then stored as the request token and carried in the authorization URL; otherwise it throws with the session unchanged; it never yields a token |
| OauthClients.GetAccessToken | src/Jira/Api/Client/OauthClient.php:95-121 | an empty verifier throws before any request; a missing request token dies; otherwise one exchange request signed with the stored temporary pair; when the response parses to credentials they are cached and stored as the access token (the request token stays) and the user is sent to the callback URL, and when it parses to nothing the credential error is thrown with the session unchanged |
| OauthClients.TempLegKeepsSlotsFilled | src/Jira/Api/Client/OauthClient.php:87-89 | the temporary-credential leg never stores an empty token array |
| OauthClients.ExchangeKeepsSlotsFilled | src/Jira/Api/Client/OauthClient.php:107-112 | the token-credential leg never stores an empty token array |
| OauthClients.GetToken | src/Jira/Api/Client/OauthClient.php:56-71 | a cached token is returned untouched; with none, a stored access token is loaded without a request, a request token alone makes the call exactly the exchange leg `GetAccessToken` (which ends in a redirect or an exception), and an empty session exactly the temporary-credential leg `ValidateOAuthAccess`; a token is yielded only with the session unchanged and no request sent |
| OauthClients.GetTokenCachesToken | src/Jira/Api/Client/OauthClient.php:60-70 | a non-empty token, once obtained, is returned by every later call with any session and verifier, with no request |
| OauthClients.GetClient | src/Jira/Api/Client/OauthClient.php:129-138 | the signing client is obtained without a request and held by the client; an agent's memoised client wins over the current token |
| OauthClients.Reauthorize | src/Jira/Api/Client/OauthClient.php:185-189 | the corrected 401 reaction: the access slot, the cached token and both clients are dropped, and the unsigned temporary-credential request redirects exactly when the response parses to credentials, and throws otherwise; on a redirect the session is the old one without the access slot and with the granted request token, the agent holds that token, and the redirect goes to the authorization page built from it (corrected, see Findings) |
| OauthClients.Respond | src/Jira/Api/Client/OauthClient.php:182-197 | (corrected, see Findings) the request is sent first; a 401 restarts the handshake without the access token when revalidation is on, redirecting exactly when new temporary credentials are granted, in which case the session holds the granted request token and no access token and the redirect goes to the authorization page built from that token, and throws "session expired" otherwise; a 2xx returns the decoded body; anything else throws with the reason phrase; only a 401 touches the session |
| OauthClients.RespondAsWritten | src/Jira/Api/Client/OauthClient.php:185-189 | the code as written: a 401 re-runs the temporary-credential leg through the agent's memoised client and keeps the rejected access token in the session |
| OauthClients.RevalidationReusesSigningClient | src/Jira/Api/Client/OauthClient.php:185-189 | as written, the temporary-credential request after a 401 is signed by the very client whose request was rejected |
| OauthClients.RespondKeepsSlotsFilled | src/Jira/Api/Client/OauthClient.php:185-197 | the response handling never leaves an empty token array in a session slot |
| OauthClients.RespondAsWrittenKeepsSlotsFilled | src/Jira/Api/Client/OauthClient.php:185-189 | nor does the handling as written |
| OauthClients.SendWith | src/Jira/Api/Client/OauthClient.php:156-201 | (corrected, see Findings) an empty URL throws with nothing sent; with the default data type the first request goes through the held client to the URL with the JSON header, POST with the data when the method is falsy or `post`, GET without a body for any other method; the session changes only after a 401, which removes the access token |
| OauthClients.SendWithResult | src/Jira/Api/Client/OauthClient.php:160-194 | a decoded body comes from exactly one request to the URL with the selected method and body, and is the decoding of that request's response; with the default data type every value returned is a decoded body |
| OauthClients.SendRequest | src/Jira/Api/Client/OauthClient.php:150-158 | with a client held, the request is sent through that client as it is, with no handshake and no new client; with a client held, an empty URL throws before anything is sent; an empty URL never yields a value; a value leaves the session unchanged |
| OauthClients.SendRequestStartsHandshake | src/Jira/Api/Client/OauthClient.php:152-154 | without a client or a token and with no access token stored, a call is exactly the handshake leg `GetToken` takes, whatever the URL |
| OauthClients.SendRequestResult | src/Jira/Api/Client/OauthClient.php:150-201 | the `SendWithResult` promise for the whole call, obtaining the client included |
| OauthClients.GetIssue | src/Jira/Api/Client/OauthClient.php:73-77 | an issue is returned only after one body-less GET to `apiUrl/issue/<id>`, and it is that response's decoded body |
| OauthClients.CreateIssue | src/Jira/Api/Client/OauthClient.php:79-83 | with a client held, the first request is a POST of the JSON-encoded fields to `apiUrl/issue/`, whatever the response; a result is returned only after exactly that one request, and it is that response's decoded body |
| BaseClients.New | src/Jira/Api/Client/BaseClient.php:35-44 | Basic authentication iff both user id and password are non-empty, with those credentials; the REST base is the base URL followed by `rest/api/2` |
| BaseClients.GetToken | src/Jira/Api/Client/BaseClient.php:46-54 | an empty token is computed as `base64(user:password)` and cached; a non-empty one is returned unchanged |
| BaseClients.TokenComputedOnce | src/Jira/Api/Client/BaseClient.php:48-53 | once a non-empty token is cached, later credentials do not change it |
| BaseClients.SendRequest | src/Jira/Api/Client/BaseClient.php:88-135 | the authentication's client is taken only when none is held, even for an empty URL; an empty URL throws, an unknown data type returns false, both without a request; otherwise one request through that client to the URL with the JSON header, a POST with the data when the method is falsy or `post` and a body-less GET for any other method; a 401 throws "registered users only", a 2xx returns the decoded body, anything else throws with the reason phrase; it never redirects |
| BaseClients.ClientObtainedOnce | src/Jira/Api/Client/BaseClient.php:90-92 | a second call keeps the first call's client whatever the authentication offers |
| BaseClients.GetIssue | src/Jira/Api/Client/BaseClient.php:56-61 | exactly one body-less GET to `apiUrl/issue/<id>` |
| BaseClients.CreateIssue | src/Jira/Api/Client/BaseClient.php:63-68 | exactly one POST to `apiUrl/issue/` with the JSON-encoded fields |
| Jira.New | src/Jira/JiraClient.php:26-34 | the recorded authentication is the argument or `oauth` when it is falsy, but a client exists iff the argument is `oauth` |
| Jira.Init | src/Jira/JiraClient.php:36-43 | a cached token is returned without a request; with no token and no client the call is fatal; with no token and a client, the outcome, session and requests are those of the client's `getToken`, and the client afterwards is the one `getToken` leaves; a token obtained is cached, and obtaining it neither sends anything nor changes the session |
| Jira.InitCachesToken | src/Jira/JiraClient.php:38-40 | a non-empty token, once obtained, is returned by every later `init` with any session and verifier |
| Jira.GetIssue | src/Jira/JiraClient.php:45-52 | a failed `init` ends the call with its outcome; an empty token returns false with no request; with a non-empty token the call is handed to the client's `getIssue`, whose outcome, session and requests (after `init`'s) it returns; so an issue comes only from a non-empty token and one GET to the client's `apiUrl/issue/<id>` |
| Jira.CreateIssue | src/Jira/JiraClient.php:54-61 | the same, handing a non-empty token's call to the client's `createIssue`, for the POST of the JSON-encoded fields to `apiUrl/issue/` |
| Jira.InitTokenIsTruthy | src/Jira/JiraClient.php:45-61 | when no slot holds an empty array, a token `init` yields is non-empty, so the calls never take their `false` branch |
| Handshake.VisitBeforeAccess | src/Jira/Api/Client/OauthClient.php:60-68 | before an access token is stored, a visit ends exactly where the OAuth client's token lookup ends, with no API request |
| Handshake.FirstVisitAsksForAuthorization | src/Jira/Api/Client/OauthClient.php:64-66 | with an empty session a visit is exactly the temporary-credential leg of a fresh client |
| Handshake.FreshClientRequestsTempCredentials | src/Jira/Api/Client/OauthClient.php:85-87 | that leg's request is a POST to `plugins/servlet/oauth/request-token?oauth_callback=<callback>`, signed with the consumer key and no token |
| Handshake.FreshClientRedirectsToAuthorizationPage | src/Jira/Api/Client/OauthClient.php:87-92 | on a redirect the granted credentials become the request token and the user goes to the base URL's authorization page for that token |
| Handshake.ReturnVisitExchangesVerifier | src/Jira/Api/Client/OauthClient.php:61-62 | with only a request token stored, a visit is exactly the exchange leg of a fresh client |
| Handshake.FreshClientExchangesVerifier | src/Jira/Api/Client/OauthClient.php:103-111 | with a non-empty verifier the exchange is one POST to `plugins/servlet/oauth/access-token?oauth_callback=<callback>&oauth_verifier=<verifier>`, signed with the stored request token pair |
| Handshake.AuthorizedVisitLoadsToken | src/Jira/Api/Client/OauthClient.php:68 | with an access token stored, the visit loads it into a fresh client and asks for the issue |
| Handshake.LoadedTokenSignsIssueRequest | src/Jira/Api/Client/OauthClient.php:129-138 | (corrected, see Findings) a fresh client holding a token builds the signing client for that token and sends the issue GET with it, to the corrected REST base; the response, handled by `Respond`, decides everything else |
| Handshake.AuthorizedVisitCallsApi | src/Jira/Api/Client/OauthClient.php:73-77 | (corrected, see Findings) once authorized, a visit is one issue GET to `<base>rest/api/2/issue/<id>` signed with the stored access token, followed by the response handling |
| Handshake.RejectedVisitRestartsHandshake | src/Jira/Api/Client/OauthClient.php:185-189 | (corrected, see Findings) a visit whose call gets a 401 drops the access token, sends an unsigned POST to the request-token endpoint with the configured callback, returns no issue, and on a redirect leaves exactly the request token that response granted, in place of the access token |
| Handshake.RejectedVisitThenVerifierExchanges | src/Jira/Api/Client/OauthClient.php:61-62 | (corrected, see Findings) the visit after that redirect, bringing a verifier, sends one exchange request signed with the request token the restart just stored from the server's response; it redirects exactly when the response parses to credentials, and then an access token is stored |
| Handshake.AsWrittenRejectedTokenIsReplayed | src/Jira/Api/Client/OauthClient.php:185-189 | as written, after a 401 the rejected token stays stored, so the next visit, whatever verifier it brings, sends the same rejected request and, from a server that answers that identical request with 401 again, gets no issue |
| Handshake.FirstVisitKeepsSlotsFilled | src/Jira/Api/Client/OauthClient.php:64-66 | a first visit stores no empty slot and yields no value |
| Handshake.ReturnVisitKeepsSlotsFilled | src/Jira/Api/Client/OauthClient.php:61-62 | a return visit stores no empty slot and yields no value |
| Handshake.AuthorizedVisitKeepsSlotsFilled | src/Jira/Api/Client/OauthClient.php:68-77 | an authorized visit stores no empty slot, and any value it yields is a decoded body |
| Handshake.VisitKeepsSlotsFilled | src/Jira/JiraClient.php:45-52 | every visit keeps every slot non-empty and never returns `false` |
| Handshake.SlotsStayFilled | src/Jira/JiraClient.php:45-52 | from an empty session, or any session without an empty slot, no run of visits ever stores an empty slot or returns `false` |
| Handshake.AsWrittenApiUrlMissesRestPath | src/Jira/Api/Client/OauthClient.php:52 | as written, the issue URL for base `https://jira.example.com/` is `https://jira.example.com//issue/JIRA-1`, while the Basic client's is `https://jira.example.com/rest/api/2/issue/JIRA-1` |
| Handshake.ApiUrlsAgree | src/Jira/Api/Client/OauthClient.php:52 | with the corrected REST base both clients share one REST base for any configuration; as written they never do |

## Left out

- The transport's exception path: the client code calls Guzzle 3's `send`, which by default throws a `BadResponseException` on a 4xx or 5xx answer. Guzzle is not part of this model; `Env.send` always returns a response. So the 401 branches and the parsing of a 4xx credential answer are modelled as the PHP code reads, though with Guzzle's default they may be unreachable and an exception would escape instead.
- The Guzzle transport, the `OauthPlugin` signature and the response objects are not part of this model. A request carries the parameters the plugin would sign with, and the response is whatever `Env.send` returns.
- Http.Classify: `isSuccessful` is taken as a status from 200 to 299. The client library's own definition is not part of this model, and Guzzle 3's also accepts 304: on a 304 the code returns the decoded body, while the model throws "Bad Request".
- The RSA-SHA1 signing callback (Oauth.php:91-106) is left out: it reads a key file and calls OpenSSL.
- `session_start`, `serialize`/`unserialize` and `$_REQUEST` are left out. The session holds the token arrays themselves, and the verifier is a parameter holding a string or nothing.
- `header`, `exit` and `die` become the outcomes `Redirect` and `Died`, which end the visit. Exceptions become `Thrown`, with their messages.
- `parse_str`, `urlencode`, `json_encode`, the JSON decoding of a response and `base64_encode` are opaque functions. Properties that hold for every such function hold for PHP's.
- Php.Format: only the `%s` and `%%` directives are formatted. Any other conversion yields no string, as does a second `%s` without an argument.
- BaseClients.GetToken and BaseClients.SendRequest take the credentials and the HTTP client as arguments. `Basic.php` and `Anonymous.php` are not part of this model.
- Two PHP requests racing on one session are not modelled. Each visit sees the session the previous one left.
- OauthClients.New builds the agent as one record rather than through the setter chain; `OauthClients.NewFollowsSetterChain` proves the two agree.
- OauthClients.New, OauthClients.SendWith, Handshake.LoadedTokenSignsIssueRequest and Handshake.AuthorizedVisitCallsApi use the corrected REST base `<base>rest/api/2` of Findings row 1. As written, the issue URL is `<base>/issue/<id>`; `OauthClients.ApiUrlAsWritten` and `Handshake.AsWrittenApiUrlMissesRestPath` state that.
- OauthClients.Respond, OauthClients.SendWith, OauthClients.RespondKeepsSlotsFilled, Handshake.RejectedVisitRestartsHandshake, Handshake.RejectedVisitThenVerifierExchanges, Handshake.AuthorizedVisitKeepsSlotsFilled, Handshake.VisitKeepsSlotsFilled and Handshake.SlotsStayFilled describe the corrected 401 reaction of Findings row 2, which drops the access token. As written, a 401 keeps it; `OauthClients.RespondAsWritten`, `OauthClients.RespondAsWrittenKeepsSlotsFilled` and `Handshake.AsWrittenRejectedTokenIsReplayed` state what the code does.
- Jira.New models the `switch` on the authentication type as string equality. A non-string argument cannot occur in the model.

## Findings

| source | as written | input that shows it | evidently intended | confidence | as-written member | corrected member |
|---|---|---|---|---|---|---|
| src/Jira/Api/Client/OauthClient.php:52 | the REST base reads the undeclared property `restApiUri` instead of `_restApiUri`; PHP yields null, so the base is the base URL alone | `base_url` = `https://jira.example.com/`: issue JIRA-1 is requested at `https://jira.example.com//issue/JIRA-1` | the base URL followed by `rest/api/2`, as `BaseClient` builds it (BaseClient.php:43) | high, not executed | Handshake.AsWrittenApiUrlMissesRestPath, OauthClients.ApiUrlAsWritten | OauthClients.ApiUrl, Handshake.ApiUrlsAgree |
| src/Jira/Api/Client/OauthClient.php:185-189 | a 401 re-runs the temporary-credential leg but keeps `JIRA_ACCESS_TOKEN`, the cached token and the memoised signing client, so the new request is signed with the rejected token, and the next visit reloads the rejected token and ignores the verifier | a stored access token the server answers with 401: the next visit, whatever verifier it brings, sends the same rejected GET and returns no issue | the restart forgets the rejected token first, so the verifier the user brings back is exchanged | medium, not executed | OauthClients.RespondAsWritten, Handshake.AsWrittenRejectedTokenIsReplayed | OauthClients.Reauthorize, Handshake.RejectedVisitThenVerifierExchanges |

=== FILE: base_client.dfy ===
/** The Basic/Anonymous REST client (BaseClient.php). Where its credentials
    and its HTTP client come from is left abstract: both arrive as arguments. */
module BaseClients {
  import opened Php
  import opened Http
  import opened Outcomes

  /** Which authentication the constructor chose. */
  datatype Credentials = Basic(baseUrl: string, userId: string, password: string) | Anonymous(baseUrl: string)

  datatype BaseClient = BaseClient(auth: Credentials, client: Option<HttpClient>, token: string, apiUrl: string)

  datatype Call<+T> = Call(outcome: Outcome<T>, client: BaseClient, sent: seq<HttpRequest>)

  /** Basic authentication exactly when both the user id and the password are
      non-empty; the REST base is the base URL followed by the API path. */
  function New(cfg: Config): (b: BaseClient)
    ensures b.auth.Basic? <==> !ConfigEmpty(cfg, "user_id") && !ConfigEmpty(cfg, "password")
    ensures b.auth.Basic? ==> b.auth.userId == cfg["user_id"] && b.auth.password == cfg["password"]
    ensures b.auth.baseUrl == ConfigValue(cfg, "base_url")
    ensures b.apiUrl == ConfigValue(cfg, "base_url") + RestApiUri
    ensures b.client == None && b.token == ""
  {
    var base := ConfigValue(cfg, "base_url");
    var auth :=
      if !ConfigEmpty(cfg, "user_id") && !ConfigEmpty(cfg, "password") then
        Basic(base, cfg["user_id"], cfg["password"])
      else Anonymous(base);
    BaseClient(auth, None, "", base + RestApiUri)
  }

  /** The Basic token, `base64(user:password)` of the credentials the
      authentication supplies, computed while none is cached and reused after. */
  function GetToken(b: BaseClient, credentials: (string, string), env: Env): (r: (BaseClient, string))
    ensures !IsEmpty(b.token) ==> r == (b, b.token)
    ensures IsEmpty(b.token) ==> r.1 == env.base64(credentials.0 + ":" + credentials.1)
    ensures r.0 == b.(token := r.1)
  {
    if IsEmpty(b.token) then
      var token := env.base64(credentials.0 + ":" + credentials.1);
      (b.(token := token), token)
    else (b, b.token)
  }

  /** Once a non-empty token is cached, later calls return it whatever the credentials say. */
  lemma TokenComputedOnce(b: BaseClient, first: (string, string), later: (string, string), env: Env)
    requires !IsEmpty(GetToken(b, first, env).1)
    ensures var (b1, t1) := GetToken(b, first, env);
            GetToken(b1, later, env) == (b1, t1)
  {
  }

  /** A REST call. The authentication's client is taken only when none is held,
      before the URL is checked; then an empty URL is an error, the method
      defaults to POST and the data type to JSON. A 401 is never retried. */
  function SendRequest(b: BaseClient, authClient: HttpClient, url: string, data: Json,
                       verb: Option<string>, dataType: Option<string>, env: Env): (r: Call<Reply>)
    ensures r.client == b.(client := Some(if b.client.Some? then b.client.value else authClient))
    ensures IsEmpty(url) ==> r.outcome == Thrown(InvalidArgument(UrlRequiredMessage)) && r.sent == []
    ensures !IsEmpty(url) && !Falsy(dataType) && dataType.value != DataTypeJson ==>
              r.outcome == Done(ReturnedFalse) && r.sent == []
    ensures !IsEmpty(url) && Falsy(dataType) ==>
              && |r.sent| == 1
              && r.sent[0].client == r.client.client.value && r.sent[0].url == url
              && r.sent[0].headers == [ContentTypeJson]
              && (Falsy(verb) || verb.value == MethodPost ==>
                    r.sent[0].verb == Post && r.sent[0].body == Some(EncodeBody(data, env)))
              && (!Falsy(verb) && verb.value != MethodPost ==> r.sent[0].verb == Get && r.sent[0].body == None)
    ensures |r.sent| == 1 ==>
              var response := env.send(r.sent[0]);
              && (response.status == 401 ==> r.outcome == Thrown(JiraException(RegisteredUsersOnlyMessage)))
              && (response.status != 401 && IsSuccessful(response.status) ==>
                    r.outcome == Done(Parsed(env.jsonDecode(response.body))))
              && (response.status != 401 && !IsSuccessful(response.status) ==>
                    r.outcome == Thrown(JiraException(BadRequestPrefix + response.reasonPhrase)))
    ensures !r.outcome.Redirect? && !r.outcome.Died?
  {
    var b1 := if b.client.None? then b.(client := Some(authClient)) else b;
    match Prepare(b1.client.value, url, data, verb, dataType, env)
    case MissingUrl => Call(Thrown(InvalidArgument(UrlRequiredMessage)), b1, [])
    case UnknownDataType => Call(Done(ReturnedFalse), b1, [])
    case Ready(request) =>
      match Classify(env.send(request), env)
      case Unauthorized => Call(Thrown(JiraException(RegisteredUsersOnlyMessage)), b1, [request])
      case Successful(json) => Call(Done(Parsed(json)), b1, [request])
      case Rejected(reason) => Call(Thrown(JiraException(BadRequestPrefix + reason)), b1, [request])
  }

  /** The client is obtained at most once: a second call uses the first call's
      client whatever the authentication offers then. */
  lemma ClientObtainedOnce(b: BaseClient, first: HttpClient, later: HttpClient, url: string, data: Json,
                           verb: Option<string>, dataType: Option<string>, env: Env)
    ensures var r1 := SendRequest(b, first, url, data, verb, dataType, env);
            SendRequest(r1.client, later, url, data, verb, dataType, env).client == r1.client
  {
  }

  /** `GET apiUrl/issue/<id>`. */
  function GetIssue(b: BaseClient, authClient: HttpClient, issueId: string, env: Env): (r: Call<Reply>)
    ensures |r.sent| == 1
    ensures r.sent[0].verb == Get && r.sent[0].body == None
    ensures r.sent[0].url == b.apiUrl + "/issue/" + issueId
  {
    SendRequest(b, authClient, b.apiUrl + "/issue/" + issueId, JNull, Some("get"), None, env)
  }

  /** `POST apiUrl/issue/` with the fields JSON-encoded. */
  function CreateIssue(b: BaseClient, authClient: HttpClient, fields: map<string, Json>, env: Env): (r: Call<Reply>)
    ensures |r.sent| == 1
    ensures r.sent[0].verb == Post && r.sent[0].body == Some(env.jsonEncode(JObject(fields)))
    ensures r.sent[0].url == b.apiUrl + "/issue/"
  {
    SendRequest(b, authClient, b.apiUrl + "/issue/", JObject(fields), Some("post"), None, env)
  }
}

=== FILE: handshake.dfy ===
/** The handshake across PHP requests. Each visit builds a fresh `JiraClient`
    for `oauth` and asks for one issue; only the session outlives the visit,
    and a visit that redirects has ended. */
module Handshake {
  import opened Php
  import opened Http
  import opened Outcomes
  import opened Sessions
  import A = Authentication
  import OC = OauthClients
  import BC = BaseClients
  import J = Jira

  /** One visit: the session as the previous visit left it, and the visit's
      own `oauth_verifier` request parameter. */
  function Visit(cfg: Config, s: Session, verifier: Option<string>, issueId: string, env: Env): J.Step<Reply> {
    J.GetIssue(J.New(cfg, Some(J.AuthOauth)), s, verifier, issueId, env)
  }

  /** The signing client a fresh agent builds for a token pair read from a session slot. */
  function SigningClient(cfg: Config, tokens: StringMap): HttpClient {
    var token := Lookup(tokens, "oauth_token");
    HttpClient(ConfigValue(cfg, "base_url"),
               Some(OAuthParams(ConfigValue(cfg, "consumer_key"), ConfigValue(cfg, "consumer_secret"),
                                if Falsy(token) then None else token,
                                if Falsy(token) then None else Lookup(tokens, "oauth_token_secret"),
                                A.SignatureMethod)))
  }

  /** The API request a visit holding the access token `access` sends. */
  function IssueRequest(cfg: Config, access: StringMap, issueId: string): HttpRequest {
    HttpRequest(SigningClient(cfg, access), Get, OC.ApiUrl(cfg) + "/issue/" + issueId, [ContentTypeJson], None)
  }

  /** Before an access token is stored, a visit ends where the OAuth client's
      token lookup ends, with its session and its requests. */
  lemma VisitBeforeAccess(cfg: Config, s: Session, verifier: Option<string>, issueId: string, env: Env)
    requires StateOf(s) != HaveAccessToken
    ensures var t := OC.GetToken(OC.New(cfg), s, verifier, env);
            var r := Visit(cfg, s, verifier, issueId, env);
            && !t.outcome.Done?
            && r.outcome == t.outcome.Propagate() && r.session == t.session && r.sent == t.sent
  {
    var j := J.New(cfg, Some(J.AuthOauth));
    assert j.client == Some(OC.New(cfg)) && j.token == map[];
  }

  /** First leg, as a visit sees it: with nothing in the session the visit is
      the temporary-credential leg of a fresh OAuth client and nothing else. */
  lemma FirstVisitAsksForAuthorization(cfg: Config, s: Session, verifier: Option<string>, issueId: string, env: Env)
    requires StateOf(s) == NoToken
    ensures var v := OC.ValidateOAuthAccess(OC.New(cfg), s, env);
            var r := Visit(cfg, s, verifier, issueId, env);
            r.outcome == v.outcome.Propagate() && r.session == v.session && r.sent == v.sent
  {
    VisitBeforeAccess(cfg, s, verifier, issueId, env);
  }

  /** The temporary-credential request of a fresh OAuth client goes to the
      request-token endpoint with the callback, signed by no token. */
  lemma FreshClientRequestsTempCredentials(cfg: Config, s: Session, env: Env)
    ensures var v := OC.ValidateOAuthAccess(OC.New(cfg), s, env);
            && v.sent[0].verb == Post
            && v.sent[0].url == OC.RequestTokenUri + "?oauth_callback=" + ConfigValue(cfg, "callback_url")
            && v.sent[0].client == SigningClient(cfg, map[])
  {
    var c := OC.New(cfg);
    assert OC.ValidateOAuthAccess(c, s, env).sent[0] == A.RequestTempCredentials(c.auth, env).request;
  }

  /** When the provider grants temporary credentials, a fresh OAuth client
      stores them as the request token and sends the user to the authorization
      page for that token. */
  lemma FreshClientRedirectsToAuthorizationPage(cfg: Config, s: Session, env: Env)
    ensures var v := OC.ValidateOAuthAccess(OC.New(cfg), s, env);
            v.outcome.Redirect? ==>
              && v.session == s[JiraRequestToken := env.parseStr(env.send(v.sent[0]).body)]
              && v.outcome.location ==
                   ConfigValue(cfg, "base_url") + OC.AuthorizationPage
                   + env.urlencode(AsString(Lookup(v.session[JiraRequestToken], "oauth_token")))
  {
    var v := OC.ValidateOAuthAccess(OC.New(cfg), s, env);
    if v.outcome.Redirect? {
      OC.AuthorizationRedirectCarriesToken(v.client.auth, env);
    }
  }

  /** Third leg, as a visit sees it: with only a request token stored the
      visit is the token-credential leg of a fresh OAuth client, which ends in
      the redirect to the callback URL or in an error. */
  lemma ReturnVisitExchangesVerifier(cfg: Config, s: Session, verifier: Option<string>, issueId: string, env: Env)
    requires StateOf(s) == HaveRequestToken
    ensures var e := OC.GetAccessToken(OC.New(cfg), s, verifier, true, env);
            var r := Visit(cfg, s, verifier, issueId, env);
            r.outcome == e.outcome.Propagate() && r.session == e.session && r.sent == e.sent
  {
    VisitBeforeAccess(cfg, s, verifier, issueId, env);
  }

  /** The exchange request of a fresh OAuth client goes to the access-token
      endpoint with the callback and the verifier, signed with the stored
      request token pair. */
  lemma FreshClientExchangesVerifier(cfg: Config, s: Session, verifier: Option<string>, env: Env)
    requires JiraRequestToken in s && !IsEmpty(AsString(verifier))
    ensures var e := OC.GetAccessToken(OC.New(cfg), s, verifier, true, env);
            && |e.sent| == 1
            && e.sent[0].verb == Post
            && e.sent[0].url == OC.AccessTokenUri + "?oauth_callback=" + ConfigValue(cfg, "callback_url")
                                + "&oauth_verifier=" + AsString(verifier)
            && e.sent[0].client == SigningClient(cfg, s[JiraRequestToken])
  {
  }

  /** The fresh OAuth client once it has loaded `access` and built the signing
      client for it. */
  function AuthorizedClient(cfg: Config, access: StringMap): OC.OauthClient {
    var sc := SigningClient(cfg, access);
    var c := OC.New(cfg).(token := access);
    c.(auth := c.auth.(client := Some(sc)), client := Some(sc))
  }

  /** With an access token stored, the visit's `Init` loads it into the fresh
      OAuth client, which then asks for the issue. */
  lemma AuthorizedVisitLoadsToken(cfg: Config, s: Session, verifier: Option<string>, issueId: string, env: Env)
    requires StateOf(s) == HaveAccessToken && SlotsFilled(s)
    ensures var g := OC.GetIssue(OC.New(cfg).(token := s[JiraAccessToken]), s, verifier, issueId, env);
            var r := Visit(cfg, s, verifier, issueId, env);
            r.outcome == g.outcome && r.session == g.session && r.sent == g.sent
  {
    var j := J.New(cfg, Some(J.AuthOauth));
    var i := J.Init(j, s, verifier, env);
    assert i.outcome == Done(s[JiraAccessToken]) && i.jira.client == Some(OC.New(cfg).(token := s[JiraAccessToken]));
  }

  /** A fresh OAuth client holding a token builds the signing client for it and
      sends the issue request with it; the response decides the rest. */
  lemma LoadedTokenSignsIssueRequest(cfg: Config, s: Session, access: StringMap, verifier: Option<string>,
                                     issueId: string, env: Env)
    requires |access| != 0
    ensures var g := OC.GetIssue(OC.New(cfg).(token := access), s, verifier, issueId, env);
            var rs := OC.Respond(AuthorizedClient(cfg, access), s, IssueRequest(cfg, access, issueId), env);
            g.outcome == rs.outcome && g.session == rs.session && g.sent == rs.sent
  {
    var c := OC.New(cfg).(token := access);
    var url := c.apiUrl + "/issue/" + issueId;
    assert !IsEmpty(url) by {
      assert |url| >= |RestApiUri|;
    }
    var sc := SigningClient(cfg, access);
    var got := OC.GetClient(c, s, verifier, env);
    assert got == OC.Step(Done(sc), AuthorizedClient(cfg, access), s, []);
    assert Prepare(sc, url, JNull, Some("get"), None, env) == Ready(IssueRequest(cfg, access, issueId));
    var sw := OC.SendWith(got.client, s, sc, url, JNull, Some("get"), None, env);
    assert sw == OC.Respond(AuthorizedClient(cfg, access), s, IssueRequest(cfg, access, issueId), env);
    assert OC.GetIssue(c, s, verifier, issueId, env) == OC.Step(sw.outcome, sw.client, sw.session, [] + sw.sent);
  }

  /** Once an access token is stored, a visit loads it, sends the GET for the
      issue signed with it, and reacts to the answer; nothing else happens. */
  lemma AuthorizedVisitCallsApi(cfg: Config, s: Session, verifier: Option<string>, issueId: string, env: Env)
    requires StateOf(s) == HaveAccessToken && SlotsFilled(s)
    ensures var rs := OC.Respond(AuthorizedClient(cfg, s[JiraAccessToken]), s,
                                 IssueRequest(cfg, s[JiraAccessToken], issueId), env);
            var r := Visit(cfg, s, verifier, issueId, env);
            r.outcome == rs.outcome && r.session == rs.session && r.sent == rs.sent
  {
    AuthorizedVisitLoadsToken(cfg, s, verifier, issueId, env);
    LoadedTokenSignsIssueRequest(cfg, s, s[JiraAccessToken], verifier, issueId, env);
  }

  /** A visit whose API call the provider answers with 401 drops the access
      token, restarts the handshake with an unsigned temporary-credential
      request, keeps every slot filled, and returns no issue. */
  lemma RejectedVisitRestartsHandshake(cfg: Config, s: Session, verifier: Option<string>, issueId: string, env: Env)
    requires StateOf(s) == HaveAccessToken && SlotsFilled(s)
    requires env.send(IssueRequest(cfg, s[JiraAccessToken], issueId)).status == 401
    ensures var r := Visit(cfg, s, verifier, issueId, env);
            && JiraAccessToken !in r.session
            && SlotsFilled(r.session)
            && (r.outcome.Redirect? || r.outcome.Thrown?)
            && (r.outcome.Redirect? ==> StateOf(r.session) == HaveRequestToken)
            && |r.sent| == 2 && r.sent[0] == IssueRequest(cfg, s[JiraAccessToken], issueId)
            && r.sent[1].verb == Post
            && r.sent[1].url == OC.RequestTokenUri + "?oauth_callback=" + ConfigValue(cfg, "callback_url")
            && r.sent[1].client.oauth.Some? && r.sent[1].client.oauth.value.token == None
            && (r.outcome.Redirect? ==>
                  r.session == (s - {JiraAccessToken})[JiraRequestToken := env.parseStr(env.send(r.sent[1]).body)])
  {
    var access := s[JiraAccessToken];
    AuthorizedVisitCallsApi(cfg, s, verifier, issueId, env);
    OC.RespondKeepsSlotsFilled(AuthorizedClient(cfg, access), s, IssueRequest(cfg, access, issueId), env);
  }

  /** After a rejected visit has sent the user to the authorization page, the
      visit that brings the verifier back exchanges the new request token for
      an access token. */
  lemma RejectedVisitThenVerifierExchanges(cfg: Config, s: Session, first: Option<string>, verifier: Option<string>,
                                           issueId: string, env: Env)
    requires StateOf(s) == HaveAccessToken && SlotsFilled(s)
    requires env.send(IssueRequest(cfg, s[JiraAccessToken], issueId)).status == 401
    requires !IsEmpty(AsString(verifier))
    ensures var a := Visit(cfg, s, first, issueId, env);
            a.outcome.Redirect? ==>
              && JiraRequestToken in a.session && |a.sent| == 2
              && a.session[JiraRequestToken] == env.parseStr(env.send(a.sent[1]).body)
              && var r := Visit(cfg, a.session, verifier, issueId, env);
              && |r.sent| == 1
              && r.sent[0].url == OC.AccessTokenUri + "?oauth_callback=" + ConfigValue(cfg, "callback_url")
                                  + "&oauth_verifier=" + AsString(verifier)
              && r.sent[0].client == SigningClient(cfg, a.session[JiraRequestToken])
              && (r.outcome.Redirect? <==> |env.parseStr(env.send(r.sent[0]).body)| != 0)
              && (r.outcome.Redirect? ==> StateOf(r.session) == HaveAccessToken)
  {
    RejectedVisitRestartsHandshake(cfg, s, first, issueId, env);
    var a := Visit(cfg, s, first, issueId, env);
    if a.outcome.Redirect? {
      ReturnVisitExchangesVerifier(cfg, a.session, verifier, issueId, env);
      FreshClientExchangesVerifier(cfg, a.session, verifier, env);
    }
  }

  /** As written, the 401 reaction keeps the rejected access token and signs
      the new temporary-credential request with it, so the next visit, whatever
      verifier it brings, sends the rejected request again and gets no issue. */
  lemma AsWrittenRejectedTokenIsReplayed(cfg: Config, s: Session, verifier: Option<string>, issueId: string, env: Env)
    requires StateOf(s) == HaveAccessToken && SlotsFilled(s)
    requires env.send(IssueRequest(cfg, s[JiraAccessToken], issueId)).status == 401
    ensures var request := IssueRequest(cfg, s[JiraAccessToken], issueId);
            var w := OC.RespondAsWritten(AuthorizedClient(cfg, s[JiraAccessToken]), s, request, env);
            && JiraAccessToken in w.session && w.session[JiraAccessToken] == s[JiraAccessToken]
            && |w.sent| == 2 && w.sent[1].client == request.client
            && var r := Visit(cfg, w.session, verifier, issueId, env);
               |r.sent| >= 1 && r.sent[0] == request && !r.outcome.Done?
  {
    var access := s[JiraAccessToken];
    var request := IssueRequest(cfg, access, issueId);
    var c := AuthorizedClient(cfg, access);
    OC.RevalidationReusesSigningClient(c, s, request, env);
    OC.RespondAsWrittenKeepsSlotsFilled(c, s, request, env);
    var w := OC.RespondAsWritten(c, s, request, env);
    assert w.session[JiraAccessToken] == access;
    AuthorizedVisitCallsApi(cfg, w.session, verifier, issueId, env);
    var rs := OC.Respond(c, w.session, request, env);
    assert |rs.sent| >= 1 && rs.sent[0] == request && !rs.outcome.Done?;
  }

  /** Replays a run of visits, each carrying its own verifier, from a session;
      returns the final session and every visit's outcome in order. */
  function Replay(cfg: Config, s: Session, verifiers: seq<Option<string>>, issueId: string, env: Env)
    : (r: (Session, seq<Outcome<Reply>>))
    ensures |r.1| == |verifiers|
    decreases |verifiers|
  {
    if |verifiers| == 0 then (s, [])
    else
      var v := Visit(cfg, s, verifiers[0], issueId, env);
      var rest := Replay(cfg, v.session, verifiers[1..], issueId, env);
      (rest.0, [v.outcome] + rest.1)
  }

  /** A first visit stores at most a non-empty request token and never returns `false`. */
  lemma FirstVisitKeepsSlotsFilled(cfg: Config, s: Session, verifier: Option<string>, issueId: string, env: Env)
    requires StateOf(s) == NoToken && SlotsFilled(s)
    ensures var r := Visit(cfg, s, verifier, issueId, env);
            SlotsFilled(r.session) && !r.outcome.Done?
  {
    FirstVisitAsksForAuthorization(cfg, s, verifier, issueId, env);
    OC.TempLegKeepsSlotsFilled(OC.New(cfg), s, env);
  }

  /** A return visit stores at most a non-empty access token and never returns `false`. */
  lemma ReturnVisitKeepsSlotsFilled(cfg: Config, s: Session, verifier: Option<string>, issueId: string, env: Env)
    requires StateOf(s) == HaveRequestToken && SlotsFilled(s)
    ensures var r := Visit(cfg, s, verifier, issueId, env);
            SlotsFilled(r.session) && !r.outcome.Done?
  {
    ReturnVisitExchangesVerifier(cfg, s, verifier, issueId, env);
    OC.ExchangeKeepsSlotsFilled(OC.New(cfg), s, verifier, true, env);
  }

  /** An authorized visit keeps its slots filled and returns either an issue or no value at all. */
  lemma AuthorizedVisitKeepsSlotsFilled(cfg: Config, s: Session, verifier: Option<string>, issueId: string, env: Env)
    requires StateOf(s) == HaveAccessToken && SlotsFilled(s)
    ensures var r := Visit(cfg, s, verifier, issueId, env);
            SlotsFilled(r.session) && (r.outcome.Done? ==> r.outcome.value.Parsed?)
  {
    var access := s[JiraAccessToken];
    AuthorizedVisitCallsApi(cfg, s, verifier, issueId, env);
    OC.RespondKeepsSlotsFilled(AuthorizedClient(cfg, access), s, IssueRequest(cfg, access, issueId), env);
  }

  /** One visit keeps every session slot filled, and with filled slots the
      entry point never returns `false`. */
  lemma VisitKeepsSlotsFilled(cfg: Config, s: Session, verifier: Option<string>, issueId: string, env: Env)
    requires SlotsFilled(s)
    ensures var r := Visit(cfg, s, verifier, issueId, env);
            SlotsFilled(r.session) && r.outcome != Done(ReturnedFalse)
  {
    match StateOf(s)
    case NoToken => FirstVisitKeepsSlotsFilled(cfg, s, verifier, issueId, env);
    case HaveRequestToken => ReturnVisitKeepsSlotsFilled(cfg, s, verifier, issueId, env);
    case HaveAccessToken => AuthorizedVisitKeepsSlotsFilled(cfg, s, verifier, issueId, env);
  }

  /** Starting from a session with every slot filled (an empty one included),
      no run of visits ever empties a slot or gets `false` back. */
  lemma {:induction false} SlotsStayFilled(cfg: Config, s: Session, verifiers: seq<Option<string>>,
                                           issueId: string, env: Env)
    requires SlotsFilled(s)
    ensures var r := Replay(cfg, s, verifiers, issueId, env);
            && SlotsFilled(r.0)
            && forall k :: 0 <= k < |r.1| ==> r.1[k] != Done(ReturnedFalse)
    decreases |verifiers|
  {
    var r := Replay(cfg, s, verifiers, issueId, env);
    if |verifiers| == 0 {
      assert r == (s, []);
    } else {
      VisitKeepsSlotsFilled(cfg, s, verifiers[0], issueId, env);
      var v := Visit(cfg, s, verifiers[0], issueId, env);
      SlotsStayFilled(cfg, v.session, verifiers[1..], issueId, env);
      var rest := Replay(cfg, v.session, verifiers[1..], issueId, env);
      assert r == (rest.0, [v.outcome] + rest.1);
      forall k | 0 <= k < |r.1|
        ensures r.1[k] != Done(ReturnedFalse)
      {
        if k > 0 {
          assert r.1[k] == rest.1[k - 1];
        }
      }
    }
  }

  /** As written, the OAuth client's REST base is only the base URL, so its
      issue URLs differ from the Basic client's for the same configuration. */
  lemma AsWrittenApiUrlMissesRestPath()
    ensures var cfg := map["base_url" := "https://jira.example.com/"];
            && OC.ApiUrlAsWritten(cfg) + "/issue/JIRA-1" == "https://jira.example.com//issue/JIRA-1"
            && BC.New(cfg).apiUrl + "/issue/JIRA-1" == "https://jira.example.com/rest/api/2/issue/JIRA-1"
            && OC.ApiUrlAsWritten(cfg) != BC.New(cfg).apiUrl
  {
    var cfg := map["base_url" := "https://jira.example.com/"];
    assert ConfigValue(cfg, "base_url") == "https://jira.example.com/";
  }

  /** With the corrected REST base both clients address the same resources. */
  lemma ApiUrlsAgree(cfg: Config)
    ensures OC.New(cfg).apiUrl == BC.New(cfg).apiUrl
    ensures OC.ApiUrlAsWritten(cfg) != BC.New(cfg).apiUrl
  {
  }
}

=== FILE: http.dfy ===
/** The HTTP side of both clients: JSON values, signed-client configurations,
    requests and responses, the library oracles, and the request building and
    response classification that OauthClient and BaseClient share. */
module Http {
  import opened Php

  datatype Json =
    | JNull
    | JBool(b: bool)
    | JNumber(n: int)
    | JString(s: string)
    | JList(items: seq<Json>)
    | JObject(members: map<string, Json>)

  datatype Method = Get | Post

  type Header = (string, string)

  const ContentTypeJson: Header := ("Content-type", "application/json")

  /** The `$method` and `$data_type` arguments of `sendRequest`, as the source spells them. */
  const MethodPost: string := "post"
  const DataTypeJson: string := "json"

  /** Where the REST resources live below the JIRA base URL. */
  const RestApiUri: string := "rest/api/2"

  /** What the OAuth plugin signs with: consumer credentials, the token pair
      (either may be null) and the signature method. The signing callback
      itself is not modelled. */
  datatype OAuthParams = OAuthParams(
    consumerKey: string,
    consumerSecret: string,
    token: Option<string>,
    tokenSecret: Option<string>,
    signatureMethod: string)

  /** An HTTP client bound to a base URL, signing every request when it carries OAuth parameters. */
  datatype HttpClient = HttpClient(baseUrl: string, oauth: Option<OAuthParams>)

  datatype HttpRequest = HttpRequest(
    client: HttpClient,
    verb: Method,
    url: string,
    headers: seq<Header>,
    body: Option<string>)

  datatype HttpResponse = HttpResponse(status: int, body: string, reasonPhrase: string)

  /** Everything outside the model's reach: the transport, and the PHP library
      functions the code applies to values (`parse_str`, `urlencode`,
      `json_encode`, the response's `json()`, `base64_encode`). */
  datatype Env = Env(
    send: HttpRequest -> HttpResponse,
    parseStr: string -> StringMap,
    urlencode: string -> string,
    jsonEncode: Json -> string,
    jsonDecode: string -> Json,
    base64: string -> string)

  /** A response the client library reports as successful. */
  predicate IsSuccessful(status: int) {
    200 <= status < 300
  }

  /** The body `sendRequest` puts on a POST: strings as they are, anything else JSON-encoded. */
  function EncodeBody(data: Json, env: Env): string {
    if data.JString? then data.s else env.jsonEncode(data)
  }

  /** What `sendRequest` does with its arguments once it holds a client. */
  datatype Prepared = MissingUrl | UnknownDataType | Ready(request: HttpRequest)

  function Prepare(client: HttpClient, url: string, data: Json, verb: Option<string>,
                   dataType: Option<string>, env: Env): (r: Prepared)
    ensures r.MissingUrl? <==> IsEmpty(url)
    ensures r.UnknownDataType? <==> !IsEmpty(url) && !Falsy(dataType) && dataType.value != DataTypeJson
    ensures r.Ready? ==> r.request.client == client && r.request.url == url
    ensures r.Ready? ==> r.request.headers == [ContentTypeJson]
    ensures r.Ready? ==> (r.request.verb == Post <==> Falsy(verb) || verb.value == MethodPost)
    ensures r.Ready? && r.request.verb == Post ==> r.request.body == Some(EncodeBody(data, env))
    ensures r.Ready? && r.request.verb == Get ==> r.request.body == None
  {
    if IsEmpty(url) then MissingUrl
    else
      var m := if Falsy(verb) then MethodPost else verb.value;
      var t := if Falsy(dataType) then DataTypeJson else dataType.value;
      if t != DataTypeJson then UnknownDataType
      else if m == MethodPost then
        Ready(HttpRequest(client, Post, url, [ContentTypeJson], Some(EncodeBody(data, env))))
      else
        Ready(HttpRequest(client, Get, url, [ContentTypeJson], None))
  }

  /** How both clients read a response before reacting to it. */
  datatype Classified = Unauthorized | Successful(json: Json) | Rejected(reason: string)

  function Classify(response: HttpResponse, env: Env): (r: Classified)
    ensures r.Unauthorized? <==> response.status == 401
    ensures r.Successful? <==> response.status != 401 && IsSuccessful(response.status)
    ensures r.Successful? ==> r.json == env.jsonDecode(response.body)
    ensures r.Rejected? ==> r.reason == response.reasonPhrase
  {
    if response.status == 401 then Unauthorized
    else if IsSuccessful(response.status) then Successful(env.jsonDecode(response.body))
    else Rejected(response.reasonPhrase)
  }

  /** A URL split at its first '?' into the part before and the query after it. */
  function SplitQuery(url: string): (r: (string, string))
    ensures '?' !in r.0
    ensures '?' in url ==> r.0 + "?" + r.1 == url
    ensures '?' !in url ==> r == (url, "")
    decreases |url|
  {
    if |url| == 0 then ("", "")
    else if url[0] == '?' then ("", url[1..])
    else
      var t := SplitQuery(url[1..]);
      assert url == [url[0]] + url[1..];
      ([url[0]] + t.0, t.1)
  }

  /** A path without '?' followed by a query splits back into exactly those two parts. */
  lemma {:induction false} SplitQueryAfterPath(path: string, query: string)
    requires '?' !in path
    ensures SplitQuery(path + "?" + query) == (path, query)
  {
    var u := path + "?" + query;
    if |path| == 0 {
      assert u[0] == '?' && u[1..] == query;
    } else {
      assert u[0] == path[0];
      assert u[1..] == path[1..] + "?" + query;
      SplitQueryAfterPath(path[1..], query);
      assert [path[0]] + path[1..] == path;
    }
  }
}

=== FILE: jira_client.dfy ===
/** The library's entry point (JiraClient.php): it builds an OAuth client for
    the `oauth` authentication type only, caches the token it gets, and calls
    the API only while it holds a truthy token. */
module Jira {
  import opened Php
  import opened Http
  import opened Outcomes
  import opened Sessions
  import OC = OauthClients

  const AuthBasic: string := "basic"
  const AuthOauth: string := "oauth"

  datatype JiraClient = JiraClient(authentication: string, client: Option<OC.OauthClient>, token: StringMap)

  datatype Step<+T> = Step(outcome: Outcome<T>, jira: JiraClient, session: Session, sent: seq<HttpRequest>)

  /** The recorded authentication defaults to `oauth`, but a client exists only
      when the argument itself is `oauth`. */
  function New(cfg: Config, authType: Option<string>): (j: JiraClient)
    ensures j.authentication == (if Falsy(authType) then AuthOauth else authType.value)
    ensures j.client.Some? <==> authType == Some(AuthOauth)
    ensures j.client.Some? ==> j.client.value == OC.New(cfg)
    ensures j.token == map[]
  {
    JiraClient(if Falsy(authType) then AuthOauth else authType.value,
               if authType == Some(AuthOauth) then Some(OC.New(cfg)) else None,
               map[])
  }

  /** The cached token, or the client's token while none is cached. */
  function Init(j: JiraClient, s: Session, verifier: Option<string>, env: Env): (r: Step<StringMap>)
    ensures |j.token| != 0 ==> r == Step(Done(j.token), j, s, [])
    ensures |j.token| == 0 && j.client.None? ==> r == Step(Thrown(Fatal(NullClientMessage)), j, s, [])
    ensures |j.token| == 0 && j.client.Some? ==>
              var t := OC.GetToken(j.client.value, s, verifier, env);
              r.outcome == t.outcome && r.session == t.session && r.sent == t.sent && r.jira.client == Some(t.client)
    ensures r.outcome.Done? ==> r.jira.token == r.outcome.value && r.session == s && r.sent == []
  {
    if |j.token| != 0 then Step(Done(j.token), j, s, [])
    else if j.client.None? then Step(Thrown(Fatal(NullClientMessage)), j, s, [])
    else
      var t := OC.GetToken(j.client.value, s, verifier, env);
      var j1 := j.(client := Some(t.client));
      if t.outcome.Done? then Step(t.outcome, j1.(token := t.outcome.value), t.session, t.sent)
      else Step(t.outcome, j1, t.session, t.sent)
  }

  /** A non-empty token `Init` returns is cached: every later `Init`, with any
      session and any verifier, returns it again without a request. */
  lemma InitCachesToken(j: JiraClient, s: Session, verifier: Option<string>,
                        later: Session, laterVerifier: Option<string>, env: Env)
    ensures var i := Init(j, s, verifier, env);
            i.outcome.Done? && |i.outcome.value| != 0 ==>
              Init(i.jira, later, laterVerifier, env) == Step(Done(i.outcome.value), i.jira, later, [])
  {
  }

  /** Delegates to the client only when `Init` yields a non-empty token; an
      empty one makes the call return false without a request. */
  function GetIssue(j: JiraClient, s: Session, verifier: Option<string>, issueId: string, env: Env): (r: Step<Reply>)
    ensures var i := Init(j, s, verifier, env);
              !i.outcome.Done? ==> r.outcome == i.outcome.Propagate() && r.session == i.session && r.sent == i.sent
    ensures var i := Init(j, s, verifier, env);
              i.outcome.Done? && |i.outcome.value| == 0 ==> r.outcome == Done(ReturnedFalse) && r.sent == []
    ensures var i := Init(j, s, verifier, env);
              r.outcome.Done? && r.outcome.value.Parsed? ==>
                  && i.outcome.Done? && |i.outcome.value| != 0 && i.jira.client.Some?
                  && |r.sent| == 1 && r.sent[0].verb == Get
                  && r.sent[0].url == i.jira.client.value.apiUrl + "/issue/" + issueId
    ensures var i := Init(j, s, verifier, env);
              i.outcome.Done? && |i.outcome.value| != 0 && i.jira.client.Some? ==>
                  var g := OC.GetIssue(i.jira.client.value, i.session, verifier, issueId, env);
                  r.outcome == g.outcome && r.session == g.session && r.sent == i.sent + g.sent
                  && r.jira.client == Some(g.client)
  {
    var i := Init(j, s, verifier, env);
    if !i.outcome.Done? then Step(i.outcome.Propagate(), i.jira, i.session, i.sent)
    else if |i.outcome.value| == 0 then Step(Done(ReturnedFalse), i.jira, i.session, i.sent)
    else if i.jira.client.None? then Step(Thrown(Fatal(NullClientMessage)), i.jira, i.session, i.sent)
    else
      var g := OC.GetIssue(i.jira.client.value, i.session, verifier, issueId, env);
      Step(g.outcome, i.jira.(client := Some(g.client)), g.session, i.sent + g.sent)
  }

  /** As `GetIssue`, for the POST that creates an issue. */
  function CreateIssue(j: JiraClient, s: Session, verifier: Option<string>, fields: map<string, Json>, env: Env): (r: Step<Reply>)
    ensures var i := Init(j, s, verifier, env);
              !i.outcome.Done? ==> r.outcome == i.outcome.Propagate() && r.session == i.session && r.sent == i.sent
    ensures var i := Init(j, s, verifier, env);
              i.outcome.Done? && |i.outcome.value| == 0 ==> r.outcome == Done(ReturnedFalse) && r.sent == []
    ensures var i := Init(j, s, verifier, env);
              r.outcome.Done? && r.outcome.value.Parsed? ==>
                  && i.outcome.Done? && |i.outcome.value| != 0 && i.jira.client.Some?
                  && |r.sent| == 1 && r.sent[0].verb == Post
                  && r.sent[0].body == Some(env.jsonEncode(JObject(fields)))
                  && r.sent[0].url == i.jira.client.value.apiUrl + "/issue/"
    ensures var i := Init(j, s, verifier, env);
              i.outcome.Done? && |i.outcome.value| != 0 && i.jira.client.Some? ==>
                  var g := OC.CreateIssue(i.jira.client.value, i.session, verifier, fields, env);
                  r.outcome == g.outcome && r.session == g.session && r.sent == i.sent + g.sent
                  && r.jira.client == Some(g.client)
  {
    var i := Init(j, s, verifier, env);
    if !i.outcome.Done? then Step(i.outcome.Propagate(), i.jira, i.session, i.sent)
    else if |i.outcome.value| == 0 then Step(Done(ReturnedFalse), i.jira, i.session, i.sent)
    else if i.jira.client.None? then Step(Thrown(Fatal(NullClientMessage)), i.jira, i.session, i.sent)
    else
      var g := OC.CreateIssue(i.jira.client.value, i.session, verifier, fields, env);
      Step(g.outcome, i.jira.(client := Some(g.client)), g.session, i.sent + g.sent)
  }

  /** With every session slot filled, a token `Init` returns is never empty, so
      the calls above never take their `false` branch. */
  lemma InitTokenIsTruthy(j: JiraClient, s: Session, verifier: Option<string>, env: Env)
    requires SlotsFilled(s)
    ensures var i := Init(j, s, verifier, env);
            i.outcome.Done? ==> |i.outcome.value| != 0
  {
  }
}

=== FILE: oauth.dfy ===
/** The OAuth 1.0a agent (Oauth.php): the credential requests of sections 2.1
    and 2.3 of RFC 5849, the authorization URL of section 2.2, and the signing
    client it builds once and then keeps. */
module Authentication {
  import opened Php
  import opened Http
  import opened Outcomes

  const DefaultRequestTokenUrl: string := "oauth"
  const DefaultAccessTokenUrl: string := "oauth"
  const DefaultAuthorizationUrl: string := "OAuth.action?oauth_token=%s"
  const SignatureMethod: string := "RSA-SHA1"

  /** The fields a setter can change, one per setter. */
  datatype Setting =
    | ConsumerKey | ConsumerSecret | CallbackUrl
    | RequestTokenUrl | AccessTokenUrl | AuthorizationUrl | PrivateKey

  /** The agent's state. Fields never set read as "" (PHP's null); `client` is
      the memoised signing client and `tokens` the last parsed credential response. */
  datatype Oauth = Oauth(
    baseUrl: string,
    consumerKey: string,
    consumerSecret: string,
    callbackUrl: string,
    requestTokenUrl: string,
    accessTokenUrl: string,
    authorizationUrl: string,
    privateKey: string,
    client: Option<HttpClient>,
    tokens: StringMap)

  function Get(o: Oauth, f: Setting): string {
    match f
    case ConsumerKey => o.consumerKey
    case ConsumerSecret => o.consumerSecret
    case CallbackUrl => o.callbackUrl
    case RequestTokenUrl => o.requestTokenUrl
    case AccessTokenUrl => o.accessTokenUrl
    case AuthorizationUrl => o.authorizationUrl
    case PrivateKey => o.privateKey
  }

  function New(baseUrl: string): (o: Oauth)
    ensures o.baseUrl == baseUrl
    ensures Get(o, RequestTokenUrl) == DefaultRequestTokenUrl
    ensures Get(o, AccessTokenUrl) == DefaultAccessTokenUrl
    ensures Get(o, AuthorizationUrl) == DefaultAuthorizationUrl
    ensures forall f :: f !in {RequestTokenUrl, AccessTokenUrl, AuthorizationUrl} ==> Get(o, f) == ""
    ensures o.client == None && o.tokens == map[]
  {
    Oauth(baseUrl, "", "", "", DefaultRequestTokenUrl, DefaultAccessTokenUrl,
          DefaultAuthorizationUrl, "", None, map[])
  }

  /** Any of the setters; each returns the agent itself, here its new value. */
  function Set(o: Oauth, f: Setting, v: string): (r: Oauth)
    ensures Get(r, f) == v
    ensures forall g :: g != f ==> Get(r, g) == Get(o, g)
    ensures r.baseUrl == o.baseUrl && r.client == o.client && r.tokens == o.tokens
  {
    match f
    case ConsumerKey => o.(consumerKey := v)
    case ConsumerSecret => o.(consumerSecret := v)
    case CallbackUrl => o.(callbackUrl := v)
    case RequestTokenUrl => o.(requestTokenUrl := v)
    case AccessTokenUrl => o.(accessTokenUrl := v)
    case AuthorizationUrl => o.(authorizationUrl := v)
    case PrivateKey => o.(privateKey := v)
  }

  /** The temporary-credential endpoint with the callback appended unescaped. */
  function TempCredentialsUrl(o: Oauth): (r: string)
    ensures '?' !in o.requestTokenUrl ==>
              SplitQuery(r) == (o.requestTokenUrl, "oauth_callback=" + o.callbackUrl)
  {
    var r := o.requestTokenUrl + "?oauth_callback=" + o.callbackUrl;
    assert r == o.requestTokenUrl + "?" + ("oauth_callback=" + o.callbackUrl);
    if '?' !in o.requestTokenUrl then
      SplitQueryAfterPath(o.requestTokenUrl, "oauth_callback=" + o.callbackUrl); r
    else r
  }

  /** The token endpoint with the callback and the verifier appended unescaped. */
  function AuthCredentialsUrl(o: Oauth, verifier: string): (r: string)
    ensures '?' !in o.accessTokenUrl ==>
              SplitQuery(r) == (o.accessTokenUrl,
                                "oauth_callback=" + o.callbackUrl + "&oauth_verifier=" + verifier)
  {
    var q := "oauth_callback=" + o.callbackUrl + "&oauth_verifier=" + verifier;
    var r := o.accessTokenUrl + "?oauth_callback=" + o.callbackUrl + "&oauth_verifier=" + verifier;
    assert r == o.accessTokenUrl + "?" + q;
    if '?' !in o.accessTokenUrl then SplitQueryAfterPath(o.accessTokenUrl, q); r
    else r
  }

  /** The signing client, built on the first call and returned unchanged by every
      later one. When built, a falsy `token` takes both token and secret from
      the last parsed credentials; otherwise both come from the arguments. */
  function GetClient(o: Oauth, token: Option<string>, tokenSecret: Option<string>): (r: (Oauth, HttpClient))
    ensures o.client.Some? ==> r == (o, o.client.value)
    ensures o.client.None? ==> r.0 == o.(client := Some(r.1))
    ensures o.client.None? ==>
              && r.1.baseUrl == o.baseUrl
              && r.1.oauth.Some?
              && r.1.oauth.value.consumerKey == o.consumerKey
              && r.1.oauth.value.consumerSecret == o.consumerSecret
              && r.1.oauth.value.signatureMethod == SignatureMethod
    ensures o.client.None? && Falsy(token) ==>
              && r.1.oauth.value.token == Lookup(o.tokens, "oauth_token")
              && r.1.oauth.value.tokenSecret == Lookup(o.tokens, "oauth_token_secret")
    ensures o.client.None? && !Falsy(token) ==>
              r.1.oauth.value.token == token && r.1.oauth.value.tokenSecret == tokenSecret
  {
    if o.client.Some? then (o, o.client.value)
    else
      var params := OAuthParams(
        o.consumerKey,
        o.consumerSecret,
        if Falsy(token) then Lookup(o.tokens, "oauth_token") else token,
        if Falsy(token) then Lookup(o.tokens, "oauth_token_secret") else tokenSecret,
        SignatureMethod);
      var c := HttpClient(o.baseUrl, Some(params));
      (o.(client := Some(c)), c)
  }

  /** Memoisation: the first call's token pair wins over every later call's. */
  lemma ClientIsMemoised(o: Oauth, t1: Option<string>, s1: Option<string>, t2: Option<string>, s2: Option<string>)
    ensures var (o1, c1) := GetClient(o, t1, s1);
            GetClient(o1, t2, s2) == (o1, c1)
  {
  }

  /** The credential response's body parsed as a form; an empty result is an error. */
  function MakeTokens(o: Oauth, body: string, env: Env): (r: (Oauth, Outcome<StringMap>))
    ensures r.1.Done? <==> |env.parseStr(body)| != 0
    ensures r.1.Done? ==> r.1.value == env.parseStr(body) && r.0 == o.(tokens := r.1.value)
    ensures !r.1.Done? ==> r == (o, Thrown(JiraException(CredentialsErrorMessage)))
  {
    var tokens := env.parseStr(body);
    if |tokens| == 0 then (o, Thrown(JiraException(CredentialsErrorMessage)))
    else (o.(tokens := tokens), Done(tokens))
  }

  /** One credential request: the agent afterwards, the parsed credentials or
      the error, and the request that went out. */
  datatype Exchange = Exchange(auth: Oauth, outcome: Outcome<StringMap>, request: HttpRequest)

  function RequestCredentials(o: Oauth, url: string, token: Option<string>,
                              tokenSecret: Option<string>, env: Env): (r: Exchange)
    ensures r.request.verb == Post && r.request.url == url
    ensures r.request.headers == [] && r.request.body == None
    ensures r.request.client == GetClient(o, token, tokenSecret).1
    ensures r.auth.client == Some(r.request.client)
    ensures !r.outcome.Redirect? && !r.outcome.Died?
    ensures r.outcome.Done? <==> |env.parseStr(env.send(r.request).body)| != 0
    ensures r.outcome.Done? ==>
              r.outcome.value == env.parseStr(env.send(r.request).body) && r.auth.tokens == r.outcome.value
    ensures !r.outcome.Done? ==>
              r.outcome == Thrown(JiraException(CredentialsErrorMessage)) && r.auth.tokens == o.tokens
    ensures r.auth == o.(client := r.auth.client, tokens := r.auth.tokens)
  {
    var (o1, client) := GetClient(o, token, tokenSecret);
    var request := HttpRequest(client, Post, url, [], None);
    var (o2, outcome) := MakeTokens(o1, env.send(request).body, env);
    Exchange(o2, outcome, request)
  }

  /** Section 2.1 of RFC 5849: temporary credentials, asked for with no token. */
  function RequestTempCredentials(o: Oauth, env: Env): (r: Exchange)
    ensures r.request.verb == Post && r.request.url == TempCredentialsUrl(o) && r.request.body == None
    ensures o.client.None? ==>
              && r.request.client.oauth.Some?
              && r.request.client.oauth.value.token == Lookup(o.tokens, "oauth_token")
    ensures o.client.None? && o.tokens == map[] ==>
              r.request.client.oauth.value.token == None && r.request.client.oauth.value.tokenSecret == None
    ensures o.client.Some? ==> r.request.client == o.client.value
    ensures r.auth == o.(client := r.auth.client, tokens := r.auth.tokens)
  {
    RequestCredentials(o, TempCredentialsUrl(o), None, None, env)
  }

  /** Section 2.3 of RFC 5849: token credentials for an authorized temporary pair and its verifier. */
  function RequestAuthCredentials(o: Oauth, token: Option<string>, tokenSecret: Option<string>,
                                  verifier: string, env: Env): (r: Exchange)
    ensures r.request.verb == Post && r.request.url == AuthCredentialsUrl(o, verifier) && r.request.body == None
    ensures o.client.None? && !Falsy(token) ==>
              && r.request.client.oauth.Some?
              && r.request.client.oauth.value.token == token
              && r.request.client.oauth.value.tokenSecret == tokenSecret
    ensures o.client.Some? ==> r.request.client == o.client.value
    ensures r.auth == o.(client := r.auth.client, tokens := r.auth.tokens)
  {
    RequestCredentials(o, AuthCredentialsUrl(o, verifier), token, tokenSecret, env)
  }

  /** Section 2.2 of RFC 5849: the base URL followed by the authorization
      template with its `%s` replaced by the URL-encoded `oauth_token` of the
      last parsed credentials. A template `sprintf` rejects contributes "",
      as PHP's `false` does in a concatenation. */
  function MakeAuthUrl(o: Oauth, env: Env): (r: string)
    ensures |r| >= |o.baseUrl| && r[..|o.baseUrl|] == o.baseUrl
    ensures '%' !in o.authorizationUrl ==> r == o.baseUrl + o.authorizationUrl
  {
    var encoded := env.urlencode(AsString(Lookup(o.tokens, "oauth_token")));
    var formatted := Sprintf(o.authorizationUrl, encoded);
    o.baseUrl + (if formatted.Some? then formatted.value else "")
  }

  /** For a template with one `%s`, the authorization URL is the base URL, the
      template's text before the directive, the encoded token and the rest. */
  lemma AuthUrlCarriesToken(o: Oauth, env: Env, prefix: string, suffix: string)
    requires o.authorizationUrl == prefix + "%s" + suffix
    requires '%' !in prefix && '%' !in suffix
    ensures MakeAuthUrl(o, env) ==
              o.baseUrl + prefix + env.urlencode(AsString(Lookup(o.tokens, "oauth_token"))) + suffix
  {
    SprintfOneDirective(prefix, suffix, env.urlencode(AsString(Lookup(o.tokens, "oauth_token"))));
  }
}

=== FILE: oauth_client.dfy ===
/** The OAuth-authenticated REST client (OauthClient.php): which leg of the
    handshake a call takes, given the two session slots, and how it reacts to
    the API's responses. Every operation returns the client and the session as
    they are afterwards, with the requests it sent in order. */
module OauthClients {
  import opened Php
  import opened Http
  import opened Outcomes
  import opened Sessions
  import A = Authentication

  const RequestTokenUri: string := "plugins/servlet/oauth/request-token"
  const AuthorizationPage: string := "plugins/servlet/oauth/authorize?oauth_token="
  const AuthorizationUri: string := AuthorizationPage + "%s"
  const AccessTokenUri: string := "plugins/servlet/oauth/access-token"

  datatype OauthClient = OauthClient(
    auth: A.Oauth,
    client: Option<HttpClient>,
    token: StringMap,
    automaticRevalidateUser: bool,
    apiUrl: string,
    callbackUrl: string)

  datatype Step<+T> = Step(outcome: Outcome<T>, client: OauthClient, session: Session, sent: seq<HttpRequest>)

  /** The REST base as line 52 builds it: the property it reads is never
      declared, so PHP reads null and only the base URL remains. */
  function ApiUrlAsWritten(cfg: Config): (r: string)
    ensures r + RestApiUri == ApiUrl(cfg)
  {
    ConfigValue(cfg, "base_url")
  }

  /** The REST base the declared `_restApiUri` evidently stands for. */
  function ApiUrl(cfg: Config): (r: string)
    ensures |r| == |ConfigValue(cfg, "base_url")| + |RestApiUri|
    ensures r[..|ConfigValue(cfg, "base_url")|] == ConfigValue(cfg, "base_url")
    ensures r[|ConfigValue(cfg, "base_url")|..] == RestApiUri
  {
    ConfigValue(cfg, "base_url") + RestApiUri
  }

  /** The constructor: an agent for the configured provider with JIRA's
      endpoint paths, and the REST base of `ApiUrl`. */
  function New(cfg: Config): (c: OauthClient)
    ensures c.auth.baseUrl == ConfigValue(cfg, "base_url")
    ensures A.Get(c.auth, A.PrivateKey) == ConfigValue(cfg, "private_key")
    ensures A.Get(c.auth, A.ConsumerKey) == ConfigValue(cfg, "consumer_key")
    ensures A.Get(c.auth, A.ConsumerSecret) == ConfigValue(cfg, "consumer_secret")
    ensures A.Get(c.auth, A.RequestTokenUrl) == RequestTokenUri
    ensures A.Get(c.auth, A.AuthorizationUrl) == AuthorizationUri
    ensures A.Get(c.auth, A.AccessTokenUrl) == AccessTokenUri
    ensures A.Get(c.auth, A.CallbackUrl) == c.callbackUrl == ConfigValue(cfg, "callback_url")
    ensures c.auth.client == None && c.auth.tokens == map[]
    ensures c.client == None && c.token == map[] && c.automaticRevalidateUser
    ensures c.apiUrl == ApiUrl(cfg)
  {
    var base := ConfigValue(cfg, "base_url");
    var callback := ConfigValue(cfg, "callback_url");
    var auth := A.Oauth(base, ConfigValue(cfg, "consumer_key"), ConfigValue(cfg, "consumer_secret"), callback,
                        RequestTokenUri, AccessTokenUri, AuthorizationUri, ConfigValue(cfg, "private_key"),
                        None, map[]);
    OauthClient(auth, None, map[], true, ApiUrl(cfg), callback)
  }

  lemma AuthorizationPageHasNoDirective()
    ensures '%' !in AuthorizationPage
  {
  }

  /** With JIRA's authorization template, the agent's authorization URL is the
      base URL, the authorization page and the URL-encoded request token. */
  lemma AuthorizationRedirectCarriesToken(o: A.Oauth, env: Env)
    requires o.authorizationUrl == AuthorizationUri
    ensures A.MakeAuthUrl(o, env) ==
              o.baseUrl + AuthorizationPage + env.urlencode(AsString(Lookup(o.tokens, "oauth_token")))
  {
    AuthorizationPageHasNoDirective();
    assert o.authorizationUrl == AuthorizationPage + "%s" + "";
    A.AuthUrlCarriesToken(o, env, AuthorizationPage, "");
  }

  /** The agent `New` builds is the one the constructor's setter chain leaves
      behind, the setters applied in the constructor's order to a new agent. */
  lemma NewFollowsSetterChain(cfg: Config)
    ensures var o0 := A.New(ConfigValue(cfg, "base_url"));
            var o1 := A.Set(o0, A.PrivateKey, ConfigValue(cfg, "private_key"));
            var o2 := A.Set(o1, A.ConsumerKey, ConfigValue(cfg, "consumer_key"));
            var o3 := A.Set(o2, A.ConsumerSecret, ConfigValue(cfg, "consumer_secret"));
            var o4 := A.Set(o3, A.RequestTokenUrl, RequestTokenUri);
            var o5 := A.Set(o4, A.AuthorizationUrl, AuthorizationUri);
            var o6 := A.Set(o5, A.AccessTokenUrl, AccessTokenUri);
            A.Set(o6, A.CallbackUrl, ConfigValue(cfg, "callback_url")) == New(cfg).auth
  {
  }

  /** The temporary-credential leg: ask for a request token, keep it in the
      session, and send the user to the provider's authorization page. It never
      yields a token. */
  function ValidateOAuthAccess(c: OauthClient, s: Session, env: Env): (r: Step<()>)
    ensures !r.outcome.Done? && !r.outcome.Died?
    ensures |r.sent| == 1 && r.sent[0] == A.RequestTempCredentials(c.auth, env).request
    ensures r.outcome.Redirect? <==> |env.parseStr(env.send(r.sent[0]).body)| != 0
    ensures r.outcome.Redirect? ==>
              && r.session == s[JiraRequestToken := env.parseStr(env.send(r.sent[0]).body)]
              && r.client.auth.tokens == r.session[JiraRequestToken]
              && r.outcome.location == A.MakeAuthUrl(r.client.auth, env)
    ensures !r.outcome.Redirect? ==>
              r.outcome == Thrown(JiraException(CredentialsErrorMessage)) && r.session == s
    ensures r.client == c.(auth := c.auth.(client := r.client.auth.client, tokens := r.client.auth.tokens))
  {
    var ex := A.RequestTempCredentials(c.auth, env);
    var c1 := c.(auth := ex.auth);
    if ex.outcome.Done? then
      Step(Redirect(A.MakeAuthUrl(ex.auth, env)), c1, s[JiraRequestToken := ex.outcome.value], [ex.request])
    else
      Step(ex.outcome.Propagate(), c1, s, [ex.request])
  }

  /** The token-credential leg: exchange the stored request token and the
      verifier for an access token, store it, and (by default) send the user
      back to the callback URL. */
  function GetAccessToken(c: OauthClient, s: Session, verifier: Option<string>, redirect: bool, env: Env): (r: Step<()>)
    ensures IsEmpty(AsString(verifier)) ==>
              r == Step(Thrown(InvalidArgument(NoVerifierMessage)), c, s, [])
    ensures !IsEmpty(AsString(verifier)) && JiraRequestToken !in s ==>
              r == Step(Died(BadRequestTokenMessage), c, s, [])
    ensures !IsEmpty(AsString(verifier)) && JiraRequestToken in s ==>
              r.sent == [A.RequestAuthCredentials(c.auth, Lookup(s[JiraRequestToken], "oauth_token"),
                                                  Lookup(s[JiraRequestToken], "oauth_token_secret"),
                                                  AsString(verifier), env).request]
    ensures r.outcome.Redirect? ==> redirect && r.outcome.location == c.callbackUrl
    ensures r.outcome.Done? ==> !redirect
    ensures r.outcome.Redirect? || r.outcome.Done? ==>
              && JiraRequestToken in s
              && r.client.token == env.parseStr(env.send(r.sent[0]).body)
              && |r.client.token| != 0
              && r.session == s[JiraAccessToken := r.client.token]
    ensures !(r.outcome.Redirect? || r.outcome.Done?) ==> r.session == s
    ensures !IsEmpty(AsString(verifier)) && JiraRequestToken in s ==>
              var granted := env.parseStr(env.send(r.sent[0]).body);
              && (|granted| != 0 ==>
                    && r.outcome == (if redirect then Redirect(c.callbackUrl) else Done(()))
                    && r.session == s[JiraAccessToken := granted])
              && (|granted| == 0 ==>
                    r.outcome == Thrown(JiraException(CredentialsErrorMessage)) && r.session == s)
  {
    var v := AsString(verifier);
    if IsEmpty(v) then
      Step(Thrown(InvalidArgument(NoVerifierMessage)), c, s, [])
    else if JiraRequestToken in s then
      var temp := s[JiraRequestToken];
      var ex := A.RequestAuthCredentials(c.auth, Lookup(temp, "oauth_token"),
                                         Lookup(temp, "oauth_token_secret"), v, env);
      if ex.outcome.Done? then
        var c1 := c.(auth := ex.auth, token := ex.outcome.value);
        var s1 := s[JiraAccessToken := ex.outcome.value];
        Step(if redirect then Redirect(c.callbackUrl) else Done(()), c1, s1, [ex.request])
      else
        Step(ex.outcome.Propagate(), c.(auth := ex.auth), s, [ex.request])
    else
      Step(Died(BadRequestTokenMessage), c, s, [])
  }

  /** The temporary-credential leg stores only a non-empty request token. */
  lemma TempLegKeepsSlotsFilled(c: OauthClient, s: Session, env: Env)
    requires SlotsFilled(s)
    ensures SlotsFilled(ValidateOAuthAccess(c, s, env).session)
  {
    var v := ValidateOAuthAccess(c, s, env);
    if v.outcome.Redirect? {
      assert v.session == s[JiraRequestToken := env.parseStr(env.send(v.sent[0]).body)];
    }
  }

  /** The token-credential leg stores only a non-empty access token. */
  lemma ExchangeKeepsSlotsFilled(c: OauthClient, s: Session, verifier: Option<string>, redirect: bool, env: Env)
    requires SlotsFilled(s)
    ensures SlotsFilled(GetAccessToken(c, s, verifier, redirect, env).session)
  {
  }

  /** The token for signing API calls. A cached token is returned as it is;
      otherwise the session decides the leg: a request token alone is
      exchanged, no token at all starts the handshake, and a stored access
      token is loaded. */
  function GetToken(c: OauthClient, s: Session, verifier: Option<string>, env: Env): (r: Step<StringMap>)
    ensures |c.token| != 0 ==> r == Step(Done(c.token), c, s, [])
    ensures |c.token| == 0 && StateOf(s) == HaveAccessToken ==>
              r == Step(Done(s[JiraAccessToken]), c.(token := s[JiraAccessToken]), s, [])
    ensures |c.token| == 0 && StateOf(s) == HaveRequestToken ==>
              && (r.outcome.Redirect? || r.outcome.Thrown?)
              && (IsEmpty(AsString(verifier)) ==> r.outcome == Thrown(InvalidArgument(NoVerifierMessage)) && r.sent == [])
              && (r.outcome.Redirect? ==>
                    r.outcome.location == c.callbackUrl && StateOf(r.session) == HaveAccessToken
                    && JiraRequestToken in r.session && r.session[JiraRequestToken] == s[JiraRequestToken])
    ensures |c.token| == 0 && StateOf(s) == NoToken ==>
              && (r.outcome.Redirect? || r.outcome.Thrown?)
              && (r.outcome.Redirect? ==> StateOf(r.session) == HaveRequestToken)
    ensures r.outcome.Done? ==> r.session == s && r.sent == [] && r.outcome.value == r.client.token
    ensures |c.token| == 0 && StateOf(s) == HaveRequestToken ==>
              var e := GetAccessToken(c, s, verifier, true, env);
              r.outcome == e.outcome.Propagate() && r.session == e.session && r.sent == e.sent
    ensures |c.token| == 0 && StateOf(s) == NoToken ==>
              var v := ValidateOAuthAccess(c, s, env);
              r.outcome == v.outcome.Propagate() && r.session == v.session && r.sent == v.sent
    ensures r.client.apiUrl == c.apiUrl && r.client.callbackUrl == c.callbackUrl
    ensures r.client.client == c.client && r.client.automaticRevalidateUser == c.automaticRevalidateUser
  {
    if |c.token| != 0 then Step(Done(c.token), c, s, [])
    else
      var pre :=
        if JiraAccessToken !in s && JiraRequestToken in s then GetAccessToken(c, s, verifier, true, env)
        else if JiraAccessToken !in s then ValidateOAuthAccess(c, s, env)
        else Step(Done(()), c, s, []);
      if !pre.outcome.Done? then Step(pre.outcome.Propagate(), pre.client, pre.session, pre.sent)
      else
        assert JiraAccessToken in pre.session;
        var t := pre.session[JiraAccessToken];
        Step(Done(t), pre.client.(token := t), pre.session, pre.sent)
  }

  /** A token `GetToken` yields is kept: a later call, with any session and any
      verifier, returns it again and neither reads nor writes a slot. */
  lemma GetTokenCachesToken(c: OauthClient, s: Session, verifier: Option<string>,
                            later: Session, laterVerifier: Option<string>, env: Env)
    ensures var t := GetToken(c, s, verifier, env);
            t.outcome.Done? && |t.outcome.value| != 0 ==>
              GetToken(t.client, later, laterVerifier, env) == Step(Done(t.outcome.value), t.client, later, [])
  {
  }

  /** The signing client for the current token; the agent's memoised client
      wins whatever token is passed. */
  function GetClient(c: OauthClient, s: Session, verifier: Option<string>, env: Env): (r: Step<HttpClient>)
    ensures r.outcome.Done? ==> r.client.client == Some(r.outcome.value) && r.session == s && r.sent == []
    ensures c.auth.client.Some? && r.outcome.Done? ==> r.outcome.value == c.auth.client.value
    ensures r.client.apiUrl == c.apiUrl && r.client.automaticRevalidateUser == c.automaticRevalidateUser
  {
    var t := GetToken(c, s, verifier, env);
    if !t.outcome.Done? then Step(t.outcome.Propagate(), t.client, t.session, t.sent)
    else
      var (auth, client) := A.GetClient(t.client.auth, Lookup(t.outcome.value, "oauth_token"),
                                        Lookup(t.outcome.value, "oauth_token_secret"));
      Step(Done(client), t.client.(auth := auth, client := Some(client)), t.session, t.sent)
  }

  /** The reaction to a 401 that restarting the handshake calls for: forget the
      rejected access token (its session slot, the cached token and both
      memoised clients) before asking for new temporary credentials, so that
      the verifier the user comes back with is exchanged. */
  function Reauthorize(c: OauthClient, s: Session, env: Env): (r: Step<()>)
    ensures !r.outcome.Done? && !r.outcome.Died?
    ensures JiraAccessToken !in r.session
    ensures r.outcome.Redirect? ==> StateOf(r.session) == HaveRequestToken && |r.session[JiraRequestToken]| != 0
    ensures !r.outcome.Redirect? ==> r.session == s - {JiraAccessToken}
    ensures |r.sent| == 1 && r.sent[0].verb == Post && r.sent[0].url == A.TempCredentialsUrl(c.auth)
    ensures r.sent[0].client.oauth.Some? && r.sent[0].client.oauth.value.token == None
    ensures r.outcome.Redirect? <==> |env.parseStr(env.send(r.sent[0]).body)| != 0
    ensures r.outcome.Redirect? ==>
              && r.session == (s - {JiraAccessToken})[JiraRequestToken := env.parseStr(env.send(r.sent[0]).body)]
              && r.client.auth.tokens == r.session[JiraRequestToken]
              && r.outcome.location == A.MakeAuthUrl(r.client.auth, env)
    ensures r.client.token == map[] && r.client.client == None
  {
    var cleared := c.(auth := c.auth.(client := None, tokens := map[]), client := None, token := map[]);
    ValidateOAuthAccess(cleared, s - {JiraAccessToken}, env)
  }

  /** What the client does with the API's answer to `request`: on 401 either
      restart the handshake without the rejected token or fail, return the
      parsed body on success, and fail with the reason phrase otherwise. */
  function Respond(c: OauthClient, s: Session, request: HttpRequest, env: Env): (r: Step<Reply>)
    ensures |r.sent| >= 1 && r.sent[0] == request
    ensures var response := env.send(request);
            && (response.status == 401 && c.automaticRevalidateUser ==>
                  && (r.outcome.Redirect? || r.outcome == Thrown(JiraException(CredentialsErrorMessage)))
                  && JiraAccessToken !in r.session
                  && (r.outcome.Redirect? ==> StateOf(r.session) == HaveRequestToken)
                  && |r.sent| == 2 && r.sent[1].url == A.TempCredentialsUrl(c.auth)
                  && r.sent[1].client.oauth.Some? && r.sent[1].client.oauth.value.token == None
                  && (r.outcome.Redirect? <==> |env.parseStr(env.send(r.sent[1]).body)| != 0)
                  && (r.outcome.Redirect? ==>
                        && r.session == (s - {JiraAccessToken})[JiraRequestToken := env.parseStr(env.send(r.sent[1]).body)]
                        && r.client.auth.tokens == r.session[JiraRequestToken]
                        && r.outcome.location == A.MakeAuthUrl(r.client.auth, env)))
            && (response.status == 401 && !c.automaticRevalidateUser ==>
                  r == Step(Thrown(JiraException(SessionExpiredMessage)), c, s, [request]))
            && (response.status != 401 && IsSuccessful(response.status) ==>
                  r == Step(Done(Parsed(env.jsonDecode(response.body))), c, s, [request]))
            && (response.status != 401 && !IsSuccessful(response.status) ==>
                  r == Step(Thrown(JiraException(BadRequestPrefix + response.reasonPhrase)), c, s, [request]))
  {
    match Classify(env.send(request), env)
    case Unauthorized =>
      if c.automaticRevalidateUser then
        var v := Reauthorize(c, s, env);
        Step(v.outcome.Propagate(), v.client, v.session, [request] + v.sent)
      else
        Step(Thrown(JiraException(SessionExpiredMessage)), c, s, [request])
    case Successful(json) => Step(Done(Parsed(json)), c, s, [request])
    case Rejected(reason) => Step(Thrown(JiraException(BadRequestPrefix + reason)), c, s, [request])
  }

  /** The 401 reaction as written: the temporary-credential leg is re-run on the
      client as the rejected token left it. Every other answer is handled as
      `Respond` handles it. */
  function RespondAsWritten(c: OauthClient, s: Session, request: HttpRequest, env: Env): (r: Step<Reply>)
    ensures |r.sent| >= 1 && r.sent[0] == request
    ensures env.send(request).status == 401 && c.automaticRevalidateUser ==>
              && (r.outcome.Redirect? || r.outcome == Thrown(JiraException(CredentialsErrorMessage)))
              && r.sent == [request, A.RequestTempCredentials(c.auth, env).request]
    ensures JiraAccessToken in s ==> JiraAccessToken in r.session && r.session[JiraAccessToken] == s[JiraAccessToken]
  {
    if env.send(request).status == 401 && c.automaticRevalidateUser then
      var v := ValidateOAuthAccess(c, s, env);
      Step(v.outcome.Propagate(), v.client, v.session, [request] + v.sent)
    else
      Respond(c, s, request, env)
  }

  /** As written, a 401 re-run of the handshake signs the temporary-credential
      request with the agent's memoised client, so the client built for the
      rejected token asks for the new credentials too. */
  lemma RevalidationReusesSigningClient(c: OauthClient, s: Session, request: HttpRequest, env: Env)
    requires c.auth.client == Some(request.client) && c.automaticRevalidateUser
    requires env.send(request).status == 401
    ensures var r := RespondAsWritten(c, s, request, env);
            |r.sent| == 2 && r.sent[1].client == request.client
  {
  }

  /** Every credential a response stores is non-empty and the only slot it
      removes is the access token's, so filled slots stay filled. */
  lemma RespondKeepsSlotsFilled(c: OauthClient, s: Session, request: HttpRequest, env: Env)
    requires SlotsFilled(s)
    ensures SlotsFilled(Respond(c, s, request, env).session)
  {
    var r := Respond(c, s, request, env);
    if env.send(request).status == 401 && c.automaticRevalidateUser {
      var v := Reauthorize(c, s, env);
      assert r.session == v.session;
    }
  }

  /** As written, the 401 re-run keeps every filled slot filled, the rejected
      access token's among them. */
  lemma RespondAsWrittenKeepsSlotsFilled(c: OauthClient, s: Session, request: HttpRequest, env: Env)
    requires SlotsFilled(s)
    ensures SlotsFilled(RespondAsWritten(c, s, request, env).session)
  {
    var r := RespondAsWritten(c, s, request, env);
    if env.send(request).status == 401 && c.automaticRevalidateUser {
      var v := ValidateOAuthAccess(c, s, env);
      assert r.session == v.session;
    } else {
      RespondKeepsSlotsFilled(c, s, request, env);
    }
  }

  /** What a REST call does once it holds `client`: an empty URL is an error;
      otherwise the request is built (the method defaulting to POST, the data
      type to JSON), sent, and the response handled. An unknown data type sends
      nothing and returns false. */
  function SendWith(c: OauthClient, s: Session, client: HttpClient, url: string, data: Json,
                    verb: Option<string>, dataType: Option<string>, env: Env): (r: Step<Reply>)
    ensures IsEmpty(url) ==> r == Step(Thrown(InvalidArgument(UrlRequiredMessage)), c, s, [])
    ensures !IsEmpty(url) && Falsy(dataType) ==>
              && |r.sent| >= 1
              && r.sent[0].client == client && r.sent[0].url == url
              && r.sent[0].headers == [ContentTypeJson]
              && (Falsy(verb) || verb.value == MethodPost ==>
                    r.sent[0].verb == Post && r.sent[0].body == Some(EncodeBody(data, env)))
              && (!Falsy(verb) && verb.value != MethodPost ==> r.sent[0].verb == Get && r.sent[0].body == None)
    ensures r.outcome.Done? ==> r.session == s
    ensures r.session != s ==>
              && |r.sent| == 2 && env.send(r.sent[0]).status == 401 && JiraAccessToken !in r.session
  {
    match Prepare(client, url, data, verb, dataType, env)
    case MissingUrl => Step(Thrown(InvalidArgument(UrlRequiredMessage)), c, s, [])
    case UnknownDataType => Step(Done(ReturnedFalse), c, s, [])
    case Ready(request) => Respond(c, s, request, env)
  }

  /** A call that returns a decoded body sent exactly one request: to `url`,
      with the method and the body the arguments select, and the result is the
      decoding of that request's response. A `false` return comes only from an
      unknown data type. */
  lemma SendWithResult(c: OauthClient, s: Session, client: HttpClient, url: string, data: Json,
                       verb: Option<string>, dataType: Option<string>, env: Env)
    ensures var r := SendWith(c, s, client, url, data, verb, dataType, env);
            && (r.outcome.Done? && r.outcome.value.Parsed? ==>
                  && |r.sent| == 1 && r.sent[0].url == url
                  && (r.sent[0].verb == Post <==> Falsy(verb) || verb.value == MethodPost)
                  && (r.sent[0].verb == Get ==> r.sent[0].body == None)
                  && (r.sent[0].verb == Post ==> r.sent[0].body == Some(EncodeBody(data, env)))
                  && r.outcome.value.json == env.jsonDecode(env.send(r.sent[0]).body))
            && (r.outcome.Done? && Falsy(dataType) ==> r.outcome.value.Parsed?)
  {
  }

  /** A REST call. The client is obtained first, and only when none is held;
      the held client is then used as `SendWith` describes. */
  function SendRequest(c: OauthClient, s: Session, verifier: Option<string>, url: string, data: Json,
                       verb: Option<string>, dataType: Option<string>, env: Env): (r: Step<Reply>)
    ensures c.client.Some? && IsEmpty(url) ==> r == Step(Thrown(InvalidArgument(UrlRequiredMessage)), c, s, [])
    ensures IsEmpty(url) ==> !r.outcome.Done?
    ensures r.outcome.Done? ==> r.session == s
    ensures c.client.Some? ==> r == SendWith(c, s, c.client.value, url, data, verb, dataType, env)
  {
    var got := if c.client.None? then GetClient(c, s, verifier, env) else Step(Done(c.client.value), c, s, []);
    if !got.outcome.Done? then Step(got.outcome.Propagate(), got.client, got.session, got.sent)
    else
      var rs := SendWith(got.client, got.session, got.outcome.value, url, data, verb, dataType, env);
      Step(rs.outcome, rs.client, rs.session, got.sent + rs.sent)
  }

  /** Without a held client or a token, and with no access token stored, a
      call is the handshake leg `GetToken` takes, whatever the URL: no API
      request is made. */
  lemma SendRequestStartsHandshake(c: OauthClient, s: Session, verifier: Option<string>, url: string, data: Json,
                                   verb: Option<string>, dataType: Option<string>, env: Env)
    requires c.client.None? && |c.token| == 0 && StateOf(s) != HaveAccessToken
    ensures var t := GetToken(c, s, verifier, env);
            var r := SendRequest(c, s, verifier, url, data, verb, dataType, env);
            && !t.outcome.Done?
            && r.outcome == t.outcome.Propagate() && r.session == t.session && r.sent == t.sent
  {
  }

  /** `SendWithResult` for the whole call: the client is obtained without a request. */
  lemma SendRequestResult(c: OauthClient, s: Session, verifier: Option<string>, url: string, data: Json,
                          verb: Option<string>, dataType: Option<string>, env: Env)
    ensures var r := SendRequest(c, s, verifier, url, data, verb, dataType, env);
            && (r.outcome.Done? && r.outcome.value.Parsed? ==>
                  && |r.sent| == 1 && r.sent[0].url == url
                  && (r.sent[0].verb == Post <==> Falsy(verb) || verb.value == MethodPost)
                  && (r.sent[0].verb == Get ==> r.sent[0].body == None)
                  && (r.sent[0].verb == Post ==> r.sent[0].body == Some(EncodeBody(data, env)))
                  && r.outcome.value.json == env.jsonDecode(env.send(r.sent[0]).body))
            && (r.outcome.Done? && Falsy(dataType) ==> r.outcome.value.Parsed?)
  {
    var got := if c.client.None? then GetClient(c, s, verifier, env) else Step(Done(c.client.value), c, s, []);
    if got.outcome.Done? {
      assert got.sent == [];
      SendWithResult(got.client, got.session, got.outcome.value, url, data, verb, dataType, env);
    }
  }

  /** `GET apiUrl/issue/<id>`. */
  function GetIssue(c: OauthClient, s: Session, verifier: Option<string>, issueId: string, env: Env): (r: Step<Reply>)
    ensures r.outcome.Done? ==>
              && |r.sent| == 1
              && r.sent[0].verb == Get && r.sent[0].body == None
              && r.sent[0].url == c.apiUrl + "/issue/" + issueId
              && r.outcome.value == Parsed(env.jsonDecode(env.send(r.sent[0]).body))
  {
    var url := c.apiUrl + "/issue/" + issueId;
    SendRequestResult(c, s, verifier, url, JNull, Some("get"), None, env);
    SendRequest(c, s, verifier, url, JNull, Some("get"), None, env)
  }

  /** `POST apiUrl/issue/` with the fields JSON-encoded. */
  function CreateIssue(c: OauthClient, s: Session, verifier: Option<string>, fields: map<string, Json>, env: Env): (r: Step<Reply>)
    ensures c.client.Some? ==>
              && |r.sent| >= 1 && r.sent[0].verb == Post
              && r.sent[0].url == c.apiUrl + "/issue/"
              && r.sent[0].body == Some(env.jsonEncode(JObject(fields)))
    ensures r.outcome.Done? ==>
              && |r.sent| == 1
              && r.sent[0].verb == Post && r.sent[0].body == Some(env.jsonEncode(JObject(fields)))
              && r.sent[0].url == c.apiUrl + "/issue/"
              && r.outcome.value == Parsed(env.jsonDecode(env.send(r.sent[0]).body))
  {
    var url := c.apiUrl + "/issue/";
    SendRequestResult(c, s, verifier, url, JObject(fields), Some(MethodPost), None, env);
    SendRequest(c, s, verifier, url, JObject(fields), Some(MethodPost), None, env)
  }
}

=== FILE: outcomes.dfy ===
/** How a call ends. PHP's exceptions, `header('Location: …'); exit`, `die()`
    and a fatal call on a null client become result variants, so that a
    redirect is a value the caller sees rather than the end of the process. */
module Outcomes {
  import opened Http

  datatype Error =
    | InvalidArgument(message: string)   // Jira\Exception\InvalidArgumentException
    | JiraException(message: string)     // Jira\Exception\Exception
    | Fatal(message: string)             // a method called on an unset client

  datatype Outcome<+T> =
    | Done(value: T)
    | Redirect(location: string)
    | Thrown(error: Error)
    | Died(message: string)
  {
    /** The same terminal outcome at another value type. */
    function Propagate<U>(): (r: Outcome<U>)
      requires !Done?
      ensures Redirect? <==> r.Redirect?
      ensures Redirect? ==> r.location == location
      ensures Thrown? ==> r == Thrown(error)
      ensures Died? ==> r == Died(message)
    {
      match this
      case Redirect(l) => Redirect(l)
      case Thrown(e) => Thrown(e)
      case Died(m) => Died(m)
    }
  }

  /** What `sendRequest` returns: the parsed JSON body, or `false` when no request was made. */
  datatype Reply = Parsed(json: Json) | ReturnedFalse

  const NoVerifierMessage: string := "There was no oauth verifier in the request"
  const BadRequestTokenMessage: string := "Bad Request Token"
  const UrlRequiredMessage: string := "Request Url must be defined"
  const SessionExpiredMessage: string := "Your user session has expired."
  const RegisteredUsersOnlyMessage: string := "Access allowed only for registered users."
  const BadRequestPrefix: string := "Bad Request. Response reason: "
  const CredentialsErrorMessage: string := "An error occurred while requesting oauth token credentials"
  const NullClientMessage: string := "Call to a member function on null"
}

=== FILE: php.dfy ===
/** PHP value conventions the client code relies on: truthiness of strings,
    `empty()`, reading a possibly missing array key, configuration arrays,
    and `sprintf` with a single argument. */
module Php {

  datatype Option<+T> = None | Some(value: T)

  /** A flat PHP array of strings, as `parse_str` yields for a form-encoded body. */
  type StringMap = map<string, string>

  /** The configuration array handed to the client constructors. */
  type Config = map<string, string>

  /** `empty($s)` for a string: true exactly for "" and "0". */
  predicate IsEmpty(s: string) {
    s == "" || s == "0"
  }

  /** `!$v` for a value that is unset, null or false (None) or a string. */
  predicate Falsy(v: Option<string>) {
    v.None? || IsEmpty(v.value)
  }

  /** `$m[$k]`: null (None) when the key is missing. */
  function Lookup(m: StringMap, k: string): Option<string> {
    if k in m then Some(m[k]) else None
  }

  /** String conversion of a value that may be null or false: both become "". */
  function AsString(v: Option<string>): string {
    if v.Some? then v.value else ""
  }

  /** `$config[$k]` used as a string. */
  function ConfigValue(cfg: Config, k: string): string {
    AsString(Lookup(cfg, k))
  }

  /** `empty($config[$k])`. */
  predicate ConfigEmpty(cfg: Config, k: string) {
    Falsy(Lookup(cfg, k))
  }

  /** `sprintf($template, $arg)` for templates built from literal text and the
      directives `%s` and `%%`. None stands for a second `%s` with no argument
      left for it and for a lone trailing `%`; it also stands for every other
      conversion, which this model does not format. `consumed` says whether
      the one argument has already been used. */
  function Format(template: string, arg: string, consumed: bool): (r: Option<string>)
    ensures '%' !in template ==> r == Some(template)
    decreases |template|
  {
    if |template| == 0 then Some("")
    else if template[0] != '%' then
      assert '%' !in template ==> '%' !in template[1..];
      assert [template[0]] + template[1..] == template;
      match Format(template[1..], arg, consumed)
      case Some(rest) => Some([template[0]] + rest)
      case None => None
    else if |template| == 1 then None
    else if template[1] == '%' then
      match Format(template[2..], arg, consumed)
      case Some(rest) => Some("%" + rest)
      case None => None
    else if template[1] == 's' && !consumed then
      match Format(template[2..], arg, true)
      case Some(rest) => Some(arg + rest)
      case None => None
    else None
  }

  function Sprintf(template: string, arg: string): Option<string> {
    Format(template, arg, false)
  }

  /** A template with exactly one `%s` and no other `%` yields the text around
      the directive with the argument in its place. */
  lemma {:induction false} SprintfOneDirective(prefix: string, suffix: string, arg: string)
    requires '%' !in prefix && '%' !in suffix
    ensures Sprintf(prefix + "%s" + suffix, arg) == Some(prefix + arg + suffix)
  {
    var t := prefix + "%s" + suffix;
    if |prefix| == 0 {
      assert t == "%s" + suffix;
      assert t[0] == '%' && t[1] == 's';
      assert t[2..] == suffix;
      assert prefix + arg + suffix == arg + suffix;
    } else {
      assert t[0] == prefix[0];
      assert t[1..] == prefix[1..] + "%s" + suffix;
      SprintfOneDirective(prefix[1..], suffix, arg);
      assert [prefix[0]] + (prefix[1..] + arg + suffix) == prefix + arg + suffix;
    }
  }
}

=== FILE: sessions.dfy ===
/** The PHP session as the OAuth client uses it: two named slots, each holding
    a token array. The slot contents are stored as arrays; PHP's `serialize`
    and `unserialize` round-trip such arrays and are not modelled. */
module Sessions {
  import opened Php

  datatype Slot = JiraRequestToken | JiraAccessToken

  type Session = map<Slot, StringMap>

  /** Where the three-legged handshake stands, read off the session each call. */
  datatype AuthorizationState = NoToken | HaveRequestToken | HaveAccessToken

  function StateOf(s: Session): AuthorizationState {
    if JiraAccessToken in s then HaveAccessToken
    else if JiraRequestToken in s then HaveRequestToken
    else NoToken
  }

  /** Every slot holds a non-empty token array, as every credential exchange stores. */
  ghost predicate SlotsFilled(s: Session) {
    forall k :: k in s ==> |s[k]| != 0
  }
}
